=== FILE: README.md ===
# PitchHmmGenerator in Dafny

A model of the hidden-Markov-model builder of the pitch matcher
(`HmmMatching.PitchHmmGenerator`), together with the pure note-naming
helpers of `Kutny.Common.CommonUtils`, with proofs of the properties the
builder promises.

`Generate` turns a score (an ordered list of notes, some of them rests) into
a graph of states. It runs in two passes:

- **State creation.** The start state is created once. Every sung note
  gets a *sound* state keyed by its index. A sung note that has a
  successor also gets a *silence* state. Rest notes get none.
- **Transitions.** For each sung note, the registered probability
  generators are consulted in registration order. Each generator is told
  how much probability the note still has unclaimed. Each proposal can
  name a *direct* transition, a transition *via silence*, or both. Direct
  transitions become edges at once. Via-silence proposals are collected.
  The total must then lie within 0.01 of 1. After that, the sound state is
  joined to its silence state with the collected mass, the silence state
  gets a 0.3 self-loop, and every collected proposal becomes an exit of
  the silence state, rescaled by 0.7 / total.

Any violation aborts the whole call:

- a duplicate index;
- a probability outside [0, 1];
- an unknown target;
- a total outside the margin;
- a missing silence state.

Modules, in dependency order:

| file | module | what it holds |
|---|---|---|
| `outcome.dfy` | `Outcome` | `Result`/`Option`, the error kinds (one per exception the code throws) |
| `common_utils.dfy` | `CommonUtils` | C#'s truncating `/` and `%`, `ToNoteName`, `Deconstruct` |
| `hmm_graph.dfy` | `HmmGraph` | notes, proposals, generators, state ids, edges, edge-list sums and filters |
| `emission.dfy` | `Emission` | the silence emission and the note emission |
| `state_creation.dfy` | `StateCreation` | the first pass |
| `transitions.dfy` | `Transitions` | generator registration, proposal handling, a reference definition of what the generators propose |
| `silence.dfy` | `SilenceWiring` | rescaled exits of a silence state |
| `note_assembly.dfy` | `NoteAssembly` | the second pass for one note: budget check and silence wiring |
| `generator.dfy` | `PitchHmmGenerator` | `Generate`, and what each note's edges are in the returned graph |
| `scenarios.dfy` | `Scenarios` | concrete two-note runs |

Modelling choices:

- **Edge weights.** An edge's weight is the probability whose natural
  logarithm the code stores. Weight 0 stands for `Math.Log(0)`, which is
  negative infinity. A silence exit is `p * 0.7 / total`, whose logarithm is
  the code's `Math.Log(p) + (Math.Log(0.7) - Math.Log(total))`.
- **Graph shape.** Edges live in one list, in the order they are added. A
  state's incoming edge list in the code is the sublist whose target is
  that state.
- **Generators.** A generator is a pure, total function value. `None` stands for a null
  result ("no opinion"). The linked-list node the code passes a generator
  becomes the note list plus a position.
- **What a note's generators propose.** `Transitions.Proposals` is an
  independent reference definition. Each generator is handed 1 minus the
  direct proposals made before it. The engine is proved to record exactly
  those proposals (`RunGeneratorsIsProposals`).

Three behaviours of the code a reader might not expect:

- **The note emission is not octave-symmetric.** It takes the maximum of
  three *cumulative* normal values, at the mean and one octave either
  side, not of three densities. For a non-decreasing distribution function
  the term an octave below always wins (`Emission.LowerOctaveDominates`).
  For a strictly increasing distribution function, as the exact normal
  cdf is, two frames an octave apart therefore score differently
  (`Emission.NoOctaveSymmetry`). In double precision the cdf rounds to
  1.0 far out in its tail, so two such frames can both score
  `Math.Log(1.0)`; the model does not cover that rounding.
- **A note with no via-silence mass still has its silence state wired.**
  The code adds a sound-to-silence edge with `Math.Log(0)` and the 0.3
  self-loop, and no exits (`Scenarios.NoViaSilenceStillWired`).
- **The last note.** A score whose final note is sung never yields a
  model: that note has no silence state, and the second pass needs one
  (`PitchHmmGenerator.LastNoteFails`).

## Model

| member | source | states |
|---|---|---|
| CommonUtils.CsRem | Kutny.Common/CommonUtils.cs:49 | C#'s `%` for a positive divisor: the result has the dividend's sign, lies strictly within one divisor of 0, and with the truncating quotient rebuilds the dividend |
| CommonUtils.ToNoteName | Kutny.Common/CommonUtils.cs:48-49 | for n ≥ 0 the name is entry n mod 12 of C, C#, …, B; the lookup fails with an index error exactly when n is negative and not a multiple of 12; any name returned is exactly entry n mod 12 |
| CommonUtils.ToNoteNamePeriodic | Kutny.Common/CommonUtils.cs:49 | for n ≥ 0, n and n + 12 get the same name, and it exists |
| CommonUtils.ToNoteNameNotPeriodicAcrossZero | Kutny.Common/CommonUtils.cs:49 | −1 has no name although 11, an octave above it, is "B" |
| CommonUtils.ToNoteNameFixedValues | Kutny.Common/CommonUtils.cs:48-49 | 0 is "C", 9 is "A", 11 is "B", −12 is "C" |
| CommonUtils.Deconstruct | Kutny.Common/CommonUtils.cs:51-55 | the key and value handed out rebuild exactly the given pair |
| Emission.NoSoundStateEmission | HmmMatching2/PitchHmmGenerator.cs:124-129 | the start and silence states score a silent frame 0.7, and a sung frame a twelfth of the remaining 0.3 |
| Emission.NoSoundStateEmissionIgnoresPitch | HmmMatching2/PitchHmmGenerator.cs:128 | the silence emission depends only on the silence flag |
| Emission.PitchClass | HmmMatching2/PitchHmmGenerator.cs:138 | the mean is the note number modulo 12 with C#'s remainder: in [0, 11] for non-negative numbers, in [−11, 0] for negative ones, always congruent to the number |
| Emission.NoteProbability | HmmMatching2/PitchHmmGenerator.cs:131-157 | rest notes are rejected and nothing else is; a silent frame scores negative infinity; a sung frame scores the log of the largest of the three normal values (stdDev 0.5) at the mean and one octave below and above |
| Emission.LowerOctaveDominates | HmmMatching2/PitchHmmGenerator.cs:143-150 | with a non-decreasing distribution function the maximum is always the term at mean − 12 |
| Emission.NoOctaveSymmetry | HmmMatching2/PitchHmmGenerator.cs:138-150 | with a strictly increasing distribution function, a frame at the note's pitch and one an octave higher score differently |
| StateCreation.CreateStates | HmmMatching2/PitchHmmGenerator.cs:25-45 | the first pass succeeds exactly when no two sung notes share an index, otherwise fails with a duplicate-key error; on success the sound table holds exactly the sung notes and the silence table exactly the sung notes that have a successor, each under its index |
| StateCreation.CreateStatesFromCorrect | HmmMatching2/PitchHmmGenerator.cs:27-45 | loop invariant of the first pass: from any prefix whose tables are right, the rest of the walk succeeds exactly when all indices are distinct and ends with the right tables |
| StateCreation.CreateStatesFrom | HmmMatching2/PitchHmmGenerator.cs:27-45 | the first-pass loop from a position with the tables built so far: it fails only with a duplicate-key error, and never overwrites or drops an entry already made; `CreateStatesFromCorrect` states what it computes from a correct prefix |
| StateCreation.StatesOfNote | HmmMatching2/PitchHmmGenerator.cs:32-41 | a sung note has a sound state; it has a silence state exactly when it is not the last note; every silence key is also a sound key |
| Transitions.Add | HmmMatching2/PitchHmmGenerator.cs:13-16 | a null generator is rejected with an argument-null error; otherwise it is appended after the earlier ones, which stay unchanged |
| Transitions.AddedGeneratorRunsLast | HmmMatching2/PitchHmmGenerator.cs:61-65 | a generator added last is consulted after all others, on the state they leave |
| Transitions.ApplyResult | HmmMatching2/PitchHmmGenerator.cs:66-87 | a zero field is neither checked nor recorded; a nonzero direct value outside [0, 1] is rejected; so is a direct edge to a note with no sound state; then a nonzero via value outside [0, 1] is rejected; it succeeds exactly when the proposal is acceptable, and then adds exactly the nonzero direct edge and the nonzero via proposal, lowering the remaining probability by the direct value only |
| Transitions.ApplyDirect | HmmMatching2/PitchHmmGenerator.cs:69-77 | the direct part alone: zero passes untouched; otherwise a value outside [0, 1] is a probability error, a target with no sound state a key error, and success records the edge from this note's sound state and lowers the remaining probability by it |
| Transitions.ApplyVia | HmmMatching2/PitchHmmGenerator.cs:79-87 | the via-silence part alone: zero passes untouched; otherwise a value outside [0, 1] is a probability error, and success defers the proposal and adds it to the via total, leaving the edges and the remaining probability alone |
| Transitions.ViaEdgesPositive | HmmMatching2/PitchHmmGenerator.cs:79-86 | since zero via values are skipped and values outside [0, 1] rejected, every deferred probability of an accepted list lies in (0, 1] |
| Transitions.ApplyResults | HmmMatching2/PitchHmmGenerator.cs:66-87 | a generator's list succeeds exactly when every proposal is acceptable, and otherwise fails with a bad-proposal error; it then records exactly the proposed direct edges and via-silence proposals, lowers the remaining probability by the direct mass only, and raises the via total by the via mass |
| Transitions.ApplyResultsKeepsWf | HmmMatching2/PitchHmmGenerator.cs:57-87 | bookkeeping invariant: remaining = 1 − recorded direct mass, via total = sum of recorded proposals, all recorded edges leave the note's sound state for existing sound states, all recorded probabilities lie in (0, 1] |
| Transitions.ApplyResultsAppend | HmmMatching2/PitchHmmGenerator.cs:66-87 | handling two lists in a row equals handling their concatenation |
| Transitions.FromInitial | HmmMatching2/PitchHmmGenerator.cs:57-87 | from the empty start (remaining 1, nothing recorded), an accepted list leaves exactly its direct edges and via-silence proposals, with the bookkeeping invariant holding and the sums matching the proposals |
| Transitions.RunGenerators | HmmMatching2/PitchHmmGenerator.cs:61-88 | the generator loop: it fails only with one of the three bad-proposal errors, and what was already recorded stays in place as a prefix; `RunGeneratorsIsProposals` states what it computes |
| Transitions.RunGeneratorsOnBudget | HmmMatching2/PitchHmmGenerator.cs:61-88 | for any budget equal to what is currently left, consulting the generators in order equals handling the reference list of proposals computed from that budget |
| Transitions.RunGeneratorsIsProposals | HmmMatching2/PitchHmmGenerator.cs:61-88 | consulting the generators in order, with null answers skipped and each handed the current remaining probability, equals handling the reference list of proposals, in which each generator sees 1 minus only the earlier direct proposals |
| SilenceWiring.SilenceExits | HmmMatching2/PitchHmmGenerator.cs:109-114 | one exit per collected proposal, in order, from the silence state to the proposed note with weight p · 0.7 / total; it fails with a key error exactly when some target has no sound state |
| SilenceWiring.ExitsMass | HmmMatching2/PitchHmmGenerator.cs:109-114 | the exits sum to the collected mass times 0.7 / total |
| SilenceWiring.SilenceMassIsOne | HmmMatching2/PitchHmmGenerator.cs:100-114 | with positive via total, the 0.3 self-loop plus the exits sum to exactly 1 |
| SilenceWiring.ExitsKeepRatios | HmmMatching2/PitchHmmGenerator.cs:109-114 | any two exits keep the ratio of the proposals they come from |
| SilenceWiring.RenormalisePreservesRatio | HmmMatching2/PitchHmmGenerator.cs:107-113 | rescaling by one common factor keeps ratios |
| SilenceWiring.RenormalisedExit | HmmMatching2/PitchHmmGenerator.cs:107-114 | the exit built for one proposal goes to the proposal's note, and its weight times the via total is the proposal's probability times 0.7 |
| SilenceWiring.SilenceExitsRescaled | HmmMatching2/PitchHmmGenerator.cs:107-115 | built from the via total, the exits are exactly the rescaled proposals: one per proposal, in order, each to its note with weight · total = probability · 0.7 |
| SilenceWiring.RescaledExitsKeepRatios | HmmMatching2/PitchHmmGenerator.cs:107-114 | with positive proposals, any two rescaled exits have the ratio of the proposals they come from |
| SilenceWiring.SumViaPositive | HmmMatching2/PitchHmmGenerator.cs:80-86 | positive proposals have a positive total exactly when there is at least one |
| NoteAssembly.FinishNote | HmmMatching2/PitchHmmGenerator.cs:89-115 | after all generators: a total above 1.01 is the "exceeds 1" error and only then; a total below 0.99 is the "not 1" error and only then; a total in range with no silence state is a key error, and any failure with the total in range is a key error; it succeeds exactly when the total is in range, the note has a silence state and every deferred target has a sound state; on success the direct edges are kept as a prefix, every new edge joins this note's states to existing states, and with nothing via silence the added edges are sound→silence with weight 0 and the 0.3 self-loop; the exact edges in every case are stated by FinishNoteEdges |
| NoteAssembly.FinishNoteMass | HmmMatching2/PitchHmmGenerator.cs:89-115 | the sound state sends out exactly direct + via mass; the entry to the silence state carries the via total; the silence state either is entered with weight 0 and sends only its 0.3 loop, or is entered positively and sends out exactly 1 |
| NoteAssembly.FinishNoteEdges | HmmMatching2/PitchHmmGenerator.cs:99-115 | a finished note's edges, one by one: the recorded direct edges, the sound-to-silence edge with the via total, the 0.3 self-loop, then one rescaled exit per deferred proposal, in order; so its sound state sends exactly the direct edges and the entry, and its silence state the loop and the exits |
| NoteAssembly.ProcessNote | HmmMatching2/PitchHmmGenerator.cs:51-115 | the whole second pass for one sung note, judged against what its generators propose: a note with no sound state fails with a key error; with its sound state, an unacceptable proposal fails with a bad-proposal error; with acceptable proposals, a total within 0.01 of 1 that still fails fails with a key error; success requires every proposal acceptable and the proposed total within 0.01 of 1; with acceptable proposals, too much and too little are told apart; a note with no silence state always fails; conversely it succeeds whenever the note has both states, every proposal is acceptable, the total is within 0.01 of 1 and every via-silence target has a sound state; every edge joins this note's states to existing states, and ProcessNoteEdges states exactly which edges they are |
| NoteAssembly.ProcessNoteMass | HmmMatching2/PitchHmmGenerator.cs:51-115 | the note's sound state sends out exactly the proposed direct + via mass; the silence state behaves as in FinishNoteMass |
| NoteAssembly.GeneratorsAccumulate | HmmMatching2/PitchHmmGenerator.cs:57-88 | when every generator's answer is accepted, the note's accumulator holds exactly the proposed direct edges and via-silence proposals, with the bookkeeping invariant |
| NoteAssembly.ProcessNoteEdges | HmmMatching2/PitchHmmGenerator.cs:51-115 | a processed note's edges, one by one: the proposed direct edges to the proposed notes with the proposed weights, in proposal order, the sound-to-silence edge with the proposed via mass, the 0.3 self-loop, and one exit per via-silence proposal to its note with its share of 0.7 |
| PitchHmmGenerator.Assemble | HmmMatching2/PitchHmmGenerator.cs:47-118 | the second pass succeeds exactly when every sung note is processed without error; every edge joins two existing note states (never the start state) and leaves a state of a note at or after the current position; AssembleFirstFailure states which error a failing pass reports and AssembleInOrder the order of the edges |
| PitchHmmGenerator.AssembleFirstFailure | HmmMatching2/PitchHmmGenerator.cs:47-118 | a failing second pass reports exactly the error of the first sung note whose processing fails, and every sung note before it was processed without error |
| PitchHmmGenerator.AssembleInOrder | HmmMatching2/PitchHmmGenerator.cs:47-118 | the edges come note by note in note order: from any later position on, the pass's edges end with exactly what it produces from there, and every edge before those leaves a state of a sung note in between |
| PitchHmmGenerator.Generate | HmmMatching2/PitchHmmGenerator.cs:18-121 | duplicate indices fail with a duplicate-key error; otherwise the call succeeds exactly when every sung note is processed without error; the result is rooted at the start state, which is the only registered state, the tables are exactly those of the first pass, and every edge joins two existing note states; GenerateFirstFailure states which error a failing call reports |
| PitchHmmGenerator.GenerateFirstFailure | HmmMatching2/PitchHmmGenerator.cs:18-121 | with distinct indices, a failing call reports exactly the error of the first sung note whose processing fails, all sung notes before it having been processed |
| PitchHmmGenerator.GenerateInOrder | HmmMatching2/PitchHmmGenerator.cs:47-118 | in every model returned the edges come note by note in note order: they end with what the second pass produces from any position, and everything before that leaves a state of an earlier sung note |
| PitchHmmGenerator.AssembleBalanced | HmmMatching2/PitchHmmGenerator.cs:47-118 | in the edges of the second pass, every sung note from the current position on is balanced: acceptable proposals, total within 0.01 of 1, sound state sending out exactly that total, silence state normalised, and the edges out of its two states are exactly its proposed direct edges and the entry, and its self-loop and rescaled exits, in order |
| PitchHmmGenerator.GenerateConserves | HmmMatching2/PitchHmmGenerator.cs:18-121 | in every model returned, each sung note's sound state sends out exactly what its generators proposed, within 0.01 of 1, and its silence state is normalised; the edges leaving its sound state are exactly the proposed direct edges (targets and weights, in order) followed by the entry into its silence state with the via mass, and those leaving its silence state are the 0.3 self-loop followed by one exit per via-silence proposal, to the proposed note, with weight · via total = probability · 0.7 |
| PitchHmmGenerator.GenerateKeepsRatios | HmmMatching2/PitchHmmGenerator.cs:107-114 | in every model returned, a sung note's silence state sends its self-loop and then one exit per via-silence proposal, and any two of those exits have the ratio of the proposals they come from |
| PitchHmmGenerator.LastNoteFails | HmmMatching2/PitchHmmGenerator.cs:37-101 | a score whose final note is sung never yields a model |
| Scenarios.OverfullNoteRejected | HmmMatching2/PitchHmmGenerator.cs:89-95 | 0.6 direct plus 0.6 via silence fails with the "exceeds 1" error |
| Scenarios.UnderfullNoteRejected | HmmMatching2/PitchHmmGenerator.cs:89-97 | 0.5 in all fails with the "not 1" error |
| Scenarios.ViaSilenceNotSubtractedEarly | HmmMatching2/PitchHmmGenerator.cs:62-95 | a generator after one that routed 0.5 via silence is still told 1.0 is left, and taking it overfills the note |
| Scenarios.NoViaSilenceStillWired | HmmMatching2/PitchHmmGenerator.cs:99-115 | with nothing via silence, the model holds the direct edge, a weight-0 sound→silence edge and the 0.3 self-loop, and nothing else |
| Scenarios.SameNoteAloneFails | HmmMatching2/PitchHmmGenerator.cs:37-101 | the same note without the trailing rest yields no model |

## Left out

- File and directory lookup (`GetTrainingDataDirectory`, `GetTrainingFile`): filesystem I/O and a process-wide cache.
- `HzToMidiNote`: floating-point `log2` and rounding.
- Floating point: reals are exact. There is no rounding drift, and no NaN, although in the code NaN passes the range checks.
- `Math.Log` is not computed. Weights stay probabilities, and an emission is `LogOf(p)` or negative infinity.
- `Normal.Function` of the math library is an uninterpreted parameter `cdf`. Its properties are assumed only where a lemma names them, as monotonicity.
- Emission.NoOctaveSymmetry: the rounding of `Normal.Function` to 1.0 in double precision is not modelled. Its argument for the term at mean − 12 is 2(x − m) + 24, and above about 8.3 the returned double is exactly 1.0. So in the code every frame above about m − 7.8, including the two frames an octave apart, scores `Math.Log(1.0)` = 0. The lemma holds for the exact, strictly increasing cdf only.
- The internals of `HiddenMarkovModel`, `HmmState`, `PitchHmmState` and `PitchHmmGenerationResult` are not part of this model. The graph is the registered states, the two tables and the edge list.
- The concrete probability generators are not modelled. Generators are assumed pure and total: a generator is a function of the notes, the position and the remaining probability, and consulting it has no other effect. A C# generator that throws (aborting `Generate`), keeps state between calls, or edits the note list the second pass is walking is outside the model. `Proposals` describes what the engine sees only under this assumption.
- Emission.NoteProbability: the null-note check (`ArgumentNullException`) is not modelled, because notes are values here and cannot be null. The emission functions are not attached to states in the model's tables: in the code `Generate` gives the start state and every silence state `NoSoundStateEmissionProbability`, and every sound state `NoteProbability(note)`. Both emissions are modelled and specified on their own (`Emission.NoSoundStateEmission`, `Emission.NoteProbability`), but which state carries which is not recorded.
- Null arguments to `Generate` are not modelled, neither a null note list nor a null note in it, because the model's notes and lists are values.
- The linked list is replaced by the note sequence plus the position. A generator can read the neighbours, as through a linked-list node, but cannot change the list; a generator that does is outside the model.
- CommonUtils.CsRem: only positive divisors are modelled, because 12 is the only divisor the code uses.
- The transient `-Infinity` and `+Infinity` logs are not modelled. When nothing goes via silence, `adj` is `+Infinity`, but no exit uses it. The model adds no exits there.

Everything the code leaves to exceptions is an `Error` kind. A failed call returns no partial model.

=== FILE: common_utils.dfy ===
/** The pure helpers of `Kutny.Common.CommonUtils`: note naming (with C#'s
    truncating remainder written out) and key/value deconstruction. */
module CommonUtils {
  import opened Outcome

  /** C#'s `/` on `int` for a positive divisor: truncates toward zero. */
  function CsQuot(a: int, b: int): int
    requires b > 0
  {
    if a >= 0 then a / b else -((-a) / b)
  }

  /** C#'s `%` on `int` for a positive divisor: the remainder that goes
      with the truncating quotient, so it takes the sign of the dividend.
      Dafny's own `%` is Euclidean and never negative. */
  function CsRem(a: int, b: int): (r: int)
    requires b > 0
    ensures a >= 0 ==> 0 <= r < b
    ensures a < 0 ==> -b < r <= 0
    ensures a == CsQuot(a, b) * b + r
  {
    if a >= 0 then a % b
    else
      var q := (-a) / b;
      var m := (-a) % b;
      assert -a == q * b + m;
      assert (-q) * b == -(q * b);
      -m
  }

  /** The twelve pitch-class names, C first. */
  const NoteNames: seq<string> :=
    ["C", "C#", "D", "D#", "E", "F", "F#", "G", "G#", "A", "A#", "B"]

  /** `ToNoteName`: indexes the name table with `num % 12` (C# remainder).
      A negative `num` that is not a multiple of 12 gives a negative index
      and the array access throws; a negative multiple of 12 gives index 0,
      "C". */
  function ToNoteName(num: int): (r: Result<string>)
    ensures r.Fail? <==> num < 0 && num % 12 != 0
    ensures r.Fail? ==> r.error == IndexOutOfRange
    ensures r.Ok? ==> r == Ok(NoteNames[num % 12])
  {
    var i := CsRem(num, 12);
    if 0 <= i < |NoteNames| then Ok(NoteNames[i]) else Fail(IndexOutOfRange)
  }

  /** Names repeat every octave for non-negative note numbers. */
  lemma ToNoteNamePeriodic(n: int)
    requires n >= 0
    ensures ToNoteName(n + 12) == ToNoteName(n)
    ensures ToNoteName(n).Ok?
  {
    assert (n + 12) % 12 == n % 12;
  }

  /** The period breaks across zero: -1 and 11 lie an octave apart, yet only
      the latter has a name. */
  lemma ToNoteNameNotPeriodicAcrossZero()
    ensures ToNoteName(-1).Fail? && ToNoteName(11) == Ok("B")
  {
  }

  lemma ToNoteNameFixedValues()
    ensures ToNoteName(0) == Ok("C")
    ensures ToNoteName(9) == Ok("A")
    ensures ToNoteName(11) == Ok("B")
    ensures ToNoteName(-12) == Ok("C")
  {
  }

  /** A .NET `KeyValuePair<TKey, TValue>`. */
  datatype KeyValuePair<K, V> = KeyValuePair(key: K, value: V)

  /** `Deconstruct`: hands back the pair's two components unchanged, so
      rebuilding a pair from them gives the original pair. */
  method Deconstruct<K, V>(kvp: KeyValuePair<K, V>) returns (key: K, value: V)
    ensures KeyValuePair(key, value) == kvp
  {
    key := kvp.key;
    value := kvp.value;
  }
}

=== FILE: emission.dfy ===
/** The emission (observation) log-likelihoods attached to the states.

    `Normal.Function` of the math library, the standard normal cumulative
    distribution function, is a parameter `cdf` of the model; the logarithm
    is kept symbolic as `LogOf(arg)`.
 */
module Emission {
  import opened Outcome
  import opened HmmGraph
  import CommonUtils

  /** One observed frame (`PitchHmmEmission`). */
  datatype Observation = Observation(isSilent: bool, normalizedPitch: real)

  /** A log-likelihood: the literal negative infinity, or `Math.Log(arg)`. */
  datatype LogLik = NegInf | LogOf(arg: real)

  /** Probability that a silence (or start) state observes silence. */
  const SilentLikelihood: real := 0.7

  /** Emission function of the start state and of every silence state:
      silence with probability 0.7, otherwise the remaining 0.3 spread
      evenly over the twelve pitch classes. */
  function NoSoundStateEmission(e: Observation): (r: LogLik)
    ensures r.LogOf? && r.arg > 0.0
    ensures e.isSilent ==> r.arg == SilentLikelihood
    ensures !e.isSilent ==> SilentLikelihood + 12.0 * r.arg == 1.0
  {
    LogOf(if e.isSilent then 0.7 else 0.3 / 12.0)
  }

  /** The silence emission looks at nothing but the silence flag. */
  lemma NoSoundStateEmissionIgnoresPitch(e1: Observation, e2: Observation)
    requires e1.isSilent == e2.isSilent
    ensures NoSoundStateEmission(e1) == NoSoundStateEmission(e2)
  {
  }

  /** Standard deviation of the pitch score. */
  const StdDev: real := 0.5

  /** `NormalDistribution(mean, 0.5, x)`: the cdf at the standardised
      distance of `x` from `mean`. */
  function NormalDistribution(cdf: real -> real, mean: real, x: real): real
  {
    cdf((x - mean) / StdDev)
  }

  /** The mean of a note's score: its note number modulo 12 with C#'s
      truncating remainder, so a negative note number gives a mean in
      [-11, 0]. */
  function PitchClass(note: Note): (m: int)
    ensures note.noteNumber >= 0 ==> m == note.noteNumber % 12
    ensures note.noteNumber < 0 ==> -12 < m <= 0
    ensures (note.noteNumber - m) % 12 == 0
  {
    CommonUtils.CsRem(note.noteNumber, 12)
  }

  /** Best of the three octave-shifted scores at `x` for a note of mean `m`. */
  function OctaveScore(cdf: real -> real, m: real, x: real): real
  {
    Max(Max(NormalDistribution(cdf, m, x), NormalDistribution(cdf, m - 12.0, x)),
        NormalDistribution(cdf, m + 12.0, x))
  }

  function Max(a: real, b: real): real
  {
    if a >= b then a else b
  }

  /** `NoteProbability`: the emission function of a note's sound state.
      A rest note is rejected. A silent frame is impossible (negative
      infinity); otherwise the log of the largest of the three scores at
      the note's mean and the means one octave below and above. */
  function NoteProbability(note: Note, cdf: real -> real): (r: Result<Observation -> LogLik>)
    ensures r.Fail? <==> note.isRest
    ensures r.Fail? ==> r.error == ArgumentInvalid
    ensures r.Ok? ==> forall e: Observation :: e.isSilent ==> r.value(e) == NegInf
    ensures r.Ok? ==> forall e: Observation :: !e.isSilent ==> r.value(e).LogOf?
    ensures r.Ok? ==> forall e: Observation :: !e.isSilent ==>
              var m := PitchClass(note) as real;
              var x := e.normalizedPitch;
              && r.value(e).arg >= NormalDistribution(cdf, m, x)
              && r.value(e).arg >= NormalDistribution(cdf, m - 12.0, x)
              && r.value(e).arg >= NormalDistribution(cdf, m + 12.0, x)
              && (r.value(e).arg == NormalDistribution(cdf, m, x)
                  || r.value(e).arg == NormalDistribution(cdf, m - 12.0, x)
                  || r.value(e).arg == NormalDistribution(cdf, m + 12.0, x))
  {
    if note.isRest then Fail(ArgumentInvalid)
    else
      var m := PitchClass(note) as real;
      Ok((e: Observation) =>
           if e.isSilent then NegInf else LogOf(OctaveScore(cdf, m, e.normalizedPitch)))
  }

  ghost predicate NonDecreasing(f: real -> real)
  {
    forall a, b :: a <= b ==> f(a) <= f(b)
  }

  ghost predicate StrictlyIncreasing(f: real -> real)
  {
    forall a, b :: a < b ==> f(a) < f(b)
  }

  /** Because the score is a cumulative distribution, hence non-decreasing,
      the maximum of the three is always the term of the mean one octave
      BELOW the note: that candidate has the largest standardised argument. */
  lemma LowerOctaveDominates(note: Note, cdf: real -> real, e: Observation)
    requires NonDecreasing(cdf)
    requires !note.isRest && !e.isSilent
    ensures NoteProbability(note, cdf).Ok?
    ensures NoteProbability(note, cdf).value(e)
         == LogOf(NormalDistribution(cdf, PitchClass(note) as real - 12.0, e.normalizedPitch))
  {
    var m := PitchClass(note) as real;
    var x := e.normalizedPitch;
    assert (x - m) / StdDev <= (x - (m - 12.0)) / StdDev;
    assert (x - (m + 12.0)) / StdDev <= (x - m) / StdDev;
  }

  /** With a strictly increasing distribution function, as the exact
      normal cdf is, a frame sung exactly at the note's pitch and one sung
      an octave higher score differently: the emission is not
      octave-symmetric. A double-precision cdf that rounds to 1.0 in its
      upper tail does not meet the requirement, and gives both frames the
      same score. */
  lemma NoOctaveSymmetry(note: Note, cdf: real -> real)
    requires StrictlyIncreasing(cdf)
    requires !note.isRest
    ensures NoteProbability(note, cdf).Ok?
    ensures NoteProbability(note, cdf).value(Observation(false, PitchClass(note) as real))
         != NoteProbability(note, cdf).value(Observation(false, PitchClass(note) as real + 12.0))
  {
    var m := PitchClass(note) as real;
    var low := Observation(false, m);
    var high := Observation(false, m + 12.0);
    LowerOctaveDominates(note, cdf, low);
    LowerOctaveDominates(note, cdf, high);
    assert (m - (m - 12.0)) / StdDev < (m + 12.0 - (m - 12.0)) / StdDev;
  }
}

=== FILE: generator.dfy ===
/** `PitchHmmGenerator.Generate`: the first pass creates the state tables,
    the second pass processes every non-rest note in order. The first
    failure anywhere aborts the whole call. The start state is registered
    with the model but receives and sends no edge.
 */
module PitchHmmGenerator {
  import opened Outcome
  import opened HmmGraph
  import opened StateCreation
  import opened Transitions
  import opened SilenceWiring
  import opened NoteAssembly

  /** Every edge joins two states that exist in `tables`; the start state
      is never an endpoint. */
  ghost predicate EdgesWellFormed(es: seq<Edge>, tables: Tables)
  {
    forall e :: e in es ==>
      && StateExists(e.source, tables)
      && StateExists(e.target, tables)
  }

  predicate StateExists(s: StateId, tables: Tables)
  {
    match s
    case Start => false
    case Sound(k) => k in tables.sound
    case Silence(k) => k in tables.silence
  }

  /** Indices of the non-rest notes from position `i` on. */
  ghost function KeysFrom(notes: seq<Note>, i: nat): set<int>
    requires i <= |notes|
  {
    set j | i <= j < |notes| && !notes[j].isRest :: notes[j].index
  }

  /** Every edge leaves a note state whose key is in `keys`. */
  ghost predicate Owned(es: seq<Edge>, keys: set<int>)
  {
    forall e :: e in es ==> !e.source.Start? && e.source.note in keys
  }

  /** Whether every non-rest note from position `i` on is processed
      without error. */
  ghost predicate AllProcessed(gens: seq<Generator>, notes: seq<Note>, i: nat, tables: Tables)
    requires i <= |notes|
  {
    forall k :: i <= k < |notes| && !notes[k].isRest ==> ProcessNote(gens, notes, k, tables).Ok?
  }

  /** The second pass from position `i`: the edges of every non-rest note,
      in note order. */
  function Assemble(gens: seq<Generator>, notes: seq<Note>, i: nat, tables: Tables): (r: Result<seq<Edge>>)
    requires i <= |notes|
    ensures r.Ok? <==> AllProcessed(gens, notes, i, tables)
    ensures r.Ok? ==> EdgesWellFormed(r.value, tables)
    ensures r.Ok? ==> Owned(r.value, KeysFrom(notes, i))
    decreases |notes| - i
  {
    if i == |notes| then Ok([])
    else if notes[i].isRest then
      AssembleStep(gens, notes, i, tables);
      Assemble(gens, notes, i + 1, tables)
    else
      AssembleStep(gens, notes, i, tables);
      var es :- ProcessNote(gens, notes, i, tables);
      var more :- Assemble(gens, notes, i + 1, tables);
      NoteEdgesWellFormed(es, notes[i].index, tables);
      Ok(es + more)
  }

  lemma AssembleStep(gens: seq<Generator>, notes: seq<Note>, i: nat, tables: Tables)
    requires i < |notes|
    ensures AllProcessed(gens, notes, i, tables)
        <==> (!notes[i].isRest ==> ProcessNote(gens, notes, i, tables).Ok?)
             && AllProcessed(gens, notes, i + 1, tables)
    ensures KeysFrom(notes, i)
         == KeysFrom(notes, i + 1) + (if notes[i].isRest then {} else {notes[i].index})
  {
    var a := KeysFrom(notes, i);
    var b := KeysFrom(notes, i + 1) + (if notes[i].isRest then {} else {notes[i].index});
    forall x | x in a ensures x in b {
      var j :| i <= j < |notes| && !notes[j].isRest && notes[j].index == x;
      if j > i {
        assert x in KeysFrom(notes, i + 1);
      }
    }
    forall x | x in b ensures x in a {
      if x in KeysFrom(notes, i + 1) {
        var j :| i + 1 <= j < |notes| && !notes[j].isRest && notes[j].index == x;
        assert x in a;
      }
    }
  }

  lemma NoteEdgesWellFormed(es: seq<Edge>, src: int, tables: Tables)
    requires src in tables.sound && src in tables.silence
    requires EdgesOfNote(es, src, tables)
    ensures EdgesWellFormed(es, tables)
    ensures Owned(es, {src})
  {
  }

  /** Whether the non-rest note at position `k` is the first, from
      position `i` on, whose processing fails, and fails with `err`. */
  ghost predicate FirstFailure(gens: seq<Generator>, notes: seq<Note>, i: nat, k: nat, tables: Tables, err: Error)
    requires i <= |notes|
  {
    && i <= k < |notes|
    && !notes[k].isRest
    && ProcessNote(gens, notes, k, tables) == Fail(err)
    && forall j :: i <= j < k && !notes[j].isRest ==> ProcessNote(gens, notes, j, tables).Ok?
  }

  /** A failing second pass reports the error of the first non-rest note
      whose processing fails; the notes before it were processed. */
  lemma {:induction false} AssembleFirstFailure(gens: seq<Generator>, notes: seq<Note>, i: nat, tables: Tables)
    requires i <= |notes|
    ensures Assemble(gens, notes, i, tables).Fail? ==>
              exists k :: FirstFailure(gens, notes, i, k, tables, Assemble(gens, notes, i, tables).error)
    decreases |notes| - i
  {
    var r := Assemble(gens, notes, i, tables);
    if r.Fail? {
      assert i < |notes|;
      if !notes[i].isRest && ProcessNote(gens, notes, i, tables).Fail? {
        assert FirstFailure(gens, notes, i, i, tables, r.error);
      } else {
        assert Assemble(gens, notes, i + 1, tables) == Fail(r.error);
        AssembleFirstFailure(gens, notes, i + 1, tables);
        var k :| FirstFailure(gens, notes, i + 1, k, tables, r.error);
        assert FirstFailure(gens, notes, i, k, tables, r.error);
      }
    }
  }

  /** Indices of the non-rest notes at positions `i` up to, not
      including, `k`. */
  ghost function KeysBetween(notes: seq<Note>, i: nat, k: nat): set<int>
    requires i <= k <= |notes|
  {
    set j | i <= j < k && !notes[j].isRest :: notes[j].index
  }

  /** `es` ends with `rest`, and every edge before it leaves a state of a
      note keyed in `keys`. */
  ghost predicate EndsWith(es: seq<Edge>, rest: seq<Edge>, keys: set<int>)
  {
    && |rest| <= |es|
    && es[|es| - |rest|..] == rest
    && Owned(es[..|es| - |rest|], keys)
  }

  /** The second pass lays the edges out note by note, in note order: for
      any later position `k`, the edges from `i` end with exactly the
      edges produced from `k`, and everything before them leaves a state
      of a non-rest note between `i` and `k`. */
  lemma {:induction false} AssembleInOrder(gens: seq<Generator>, notes: seq<Note>, i: nat, k: nat, tables: Tables)
    requires i <= k <= |notes|
    ensures Assemble(gens, notes, i, tables).Ok? ==>
              && Assemble(gens, notes, k, tables).Ok?
              && EndsWith(Assemble(gens, notes, i, tables).value, Assemble(gens, notes, k, tables).value, KeysBetween(notes, i, k))
    decreases k - i
  {
    if Assemble(gens, notes, i, tables).Ok? {
      var es := Assemble(gens, notes, i, tables).value;
      if i == k {
        assert EndsWith(es, es, KeysBetween(notes, i, k));
      } else {
        var mine, more := AssembleUnfold(gens, notes, i, tables, es);
        AssembleInOrder(gens, notes, i + 1, k, tables);
        InOrderAt(gens, notes, i, k, tables, es, mine, more, Assemble(gens, notes, k, tables).value);
      }
    }
  }

  /** The inductive step of `AssembleInOrder`, stated without the second
      pass: note `i`'s edges `mine`, if it is sung, go in front. */
  lemma InOrderAt(gens: seq<Generator>, notes: seq<Note>, i: nat, k: nat, tables: Tables,
                  es: seq<Edge>, mine: seq<Edge>, more: seq<Edge>, rest: seq<Edge>)
    requires i < k <= |notes|
    requires notes[i].isRest ==> es == more
    requires !notes[i].isRest ==> ProcessNote(gens, notes, i, tables) == Ok(mine) && es == mine + more
    requires EndsWith(more, rest, KeysBetween(notes, i + 1, k))
    ensures EndsWith(es, rest, KeysBetween(notes, i, k))
  {
    KeysBetweenGrow(notes, i, k);
    if notes[i].isRest {
      InOrderStep([], more, rest, {}, KeysBetween(notes, i + 1, k), KeysBetween(notes, i, k));
      assert es == [] + more;
    } else {
      NoteEdgesWellFormed(mine, notes[i].index, tables);
      InOrderStep(mine, more, rest, {notes[i].index}, KeysBetween(notes, i + 1, k), KeysBetween(notes, i, k));
    }
  }

  /** Putting a note's own edges in front keeps a list that ends with
      `rest` ending with it, and widens the owners of what comes before. */
  lemma InOrderStep(mine: seq<Edge>, more: seq<Edge>, rest: seq<Edge>, own: set<int>, later: set<int>, keys: set<int>)
    requires EndsWith(more, rest, later)
    requires Owned(mine, own) && own <= keys && later <= keys
    ensures EndsWith(mine + more, rest, keys)
  {
    var es := mine + more;
    var front := more[..|more| - |rest|];
    assert es[..|es| - |rest|] == mine + front;
    assert es[|es| - |rest|..] == more[|more| - |rest|..];
  }

  lemma KeysBetweenGrow(notes: seq<Note>, i: nat, k: nat)
    requires i < k <= |notes|
    ensures KeysBetween(notes, i + 1, k) <= KeysBetween(notes, i, k)
    ensures !notes[i].isRest ==> notes[i].index in KeysBetween(notes, i, k)
  {
  }

  /** `Generate`: build the state tables, then the edges. The result is
      rooted at the start state, which is the only registered state. */
  function Generate(gens: seq<Generator>, notes: seq<Note>): (r: Result<GenerationResult>)
    ensures !DistinctIndices(notes) ==> r == Fail(DuplicateKey)
    ensures DistinctIndices(notes) ==>
              (r.Ok? <==> AllProcessed(gens, notes, 0, CreateStates(notes).value))
    ensures r.Ok? ==> r.value.start == Start && r.value.model.registered == [Start]
    ensures r.Ok? ==> TablesFor(notes, |notes|, r.value.model.tables)
    ensures r.Ok? ==> EdgesWellFormed(r.value.model.edges, r.value.model.tables)
  {
    var tables :- CreateStates(notes);
    var edges :- Assemble(gens, notes, 0, tables);
    Ok(GenerationResult(HmmModel([Start], tables, edges), Start))
  }

  /** With distinct indices, a failing call reports the error of the
      first non-rest note whose processing fails. */
  lemma GenerateFirstFailure(gens: seq<Generator>, notes: seq<Note>)
    ensures DistinctIndices(notes) && Generate(gens, notes).Fail? ==>
              exists k :: FirstFailure(gens, notes, 0, k, CreateStates(notes).value, Generate(gens, notes).error)
  {
    if DistinctIndices(notes) && Generate(gens, notes).Fail? {
      AssembleFirstFailure(gens, notes, 0, CreateStates(notes).value);
    }
  }

  /** In every model returned, the edges come note by note, in note
      order: they end with what the second pass produces from any position
      `k`, and everything before that belongs to the non-rest notes before
      `k`. */
  lemma GenerateInOrder(gens: seq<Generator>, notes: seq<Note>, k: nat)
    requires k <= |notes|
    ensures Generate(gens, notes).Ok? ==>
              var tables := Generate(gens, notes).value.model.tables;
              && Assemble(gens, notes, k, tables).Ok?
              && EndsWith(Generate(gens, notes).value.model.edges, Assemble(gens, notes, k, tables).value, KeysBetween(notes, 0, k))
  {
    if Generate(gens, notes).Ok? {
      AssembleInOrder(gens, notes, 0, k, CreateStates(notes).value);
    }
  }

  // ---------------------------------------------------------------------
  // Probability conservation over the whole graph.

  /** What the finished graph says about the non-rest note at position `k`:
      its proposals were acceptable, its sound state sends out exactly the
      proposed mass, which lies within 0.01 of 1, the edge into its silence
      state carries the via-silence mass, its silence state is normalised
      as `SilenceMassOk` says, and the edges out of its two states are,
      in order, the proposed direct edges and the entry, and the self-loop
      and one rescaled exit per via-silence proposal (`WiredAs`). */
  ghost predicate Balanced(gens: seq<Generator>, notes: seq<Note>, k: nat, tables: Tables, es: seq<Edge>)
    requires k < |notes|
  {
    var p := Proposals(gens, notes, k, 1.0);
    var idx := notes[k].index;
    && (forall r :: r in p ==> Acceptable(r, tables.sound))
    && 1.0 - Margin <= DirectSum(p) + ViaSum(p) <= 1.0 + Margin
    && OutMass(es, Sound(idx)) == DirectSum(p) + ViaSum(p)
    && Sum(Between(es, Sound(idx), Silence(idx))) == ViaSum(p)
    && SilenceMassOk(es, idx)
    && WiredAs(es, idx, DirectEdges(idx, p), ViaEdges(p))
  }

  /** Every non-rest note from position `i` on is balanced in `es`. */
  ghost predicate AllBalanced(gens: seq<Generator>, notes: seq<Note>, i: nat, tables: Tables, es: seq<Edge>)
    requires i <= |notes|
  {
    forall k :: i <= k < |notes| && !notes[k].isRest ==> Balanced(gens, notes, k, tables, es)
  }

  /** Edges owned by other notes add nothing to what note `idx`'s states
      send out, nor change which edges they send. */
  lemma OthersAddNothing(mine: seq<Edge>, others: seq<Edge>, keys: set<int>, idx: int, before: bool)
    requires Owned(others, keys) && idx !in keys
    ensures var es := if before then others + mine else mine + others;
            && From(es, Sound(idx)) == From(mine, Sound(idx))
            && From(es, Silence(idx)) == From(mine, Silence(idx))
            && OutMass(es, Sound(idx)) == OutMass(mine, Sound(idx))
            && OutMass(es, Silence(idx)) == OutMass(mine, Silence(idx))
            && Sum(Between(es, Sound(idx), Silence(idx))) == Sum(Between(mine, Sound(idx), Silence(idx)))
  {
    FromNone(others, Sound(idx), Silence(idx));
    FromNone(others, Silence(idx), Silence(idx));
    if before {
      FromAppend(others, mine, Sound(idx));
      FromAppend(others, mine, Silence(idx));
      OutMassAppend(others, mine, Sound(idx));
      OutMassAppend(others, mine, Silence(idx));
      BetweenMassAppend(others, mine, Sound(idx), Silence(idx));
    } else {
      FromAppend(mine, others, Sound(idx));
      FromAppend(mine, others, Silence(idx));
      OutMassAppend(mine, others, Sound(idx));
      OutMassAppend(mine, others, Silence(idx));
      BetweenMassAppend(mine, others, Sound(idx), Silence(idx));
    }
  }

  /** So a note balanced in its own edges stays balanced next to them. */
  lemma BalancedIgnoresOthers(gens: seq<Generator>, notes: seq<Note>, k: nat, tables: Tables,
                              mine: seq<Edge>, others: seq<Edge>, keys: set<int>, before: bool)
    requires k < |notes|
    requires Balanced(gens, notes, k, tables, mine)
    requires Owned(others, keys) && notes[k].index !in keys
    ensures Balanced(gens, notes, k, tables, if before then others + mine else mine + others)
  {
    OthersAddNothing(mine, others, keys, notes[k].index, before);
  }

  /** The key of the note at `i` is not used again later in the sequence. */
  lemma KeyNotLater(notes: seq<Note>, i: nat)
    requires i < |notes| && DistinctIndices(notes) && !notes[i].isRest
    ensures notes[i].index !in KeysFrom(notes, i + 1)
  {
    forall j | i + 1 <= j < |notes| && !notes[j].isRest
      ensures notes[j].index != notes[i].index
    {
    }
  }

  /** One step of the second pass keeps every note balanced: the new note
      is balanced in its own edges, the later ones in theirs. */
  lemma BalancedStep(gens: seq<Generator>, notes: seq<Note>, i: nat, tables: Tables,
                     es: seq<Edge>, more: seq<Edge>)
    requires i < |notes| && DistinctIndices(notes) && !notes[i].isRest
    requires ProcessNote(gens, notes, i, tables) == Ok(es)
    requires Owned(more, KeysFrom(notes, i + 1))
    requires AllBalanced(gens, notes, i + 1, tables, more)
    ensures AllBalanced(gens, notes, i, tables, es + more)
  {
    var idx := notes[i].index;
    NoteEdgesWellFormed(es, idx, tables);
    KeyNotLater(notes, i);
    ProcessNoteMass(gens, notes, i, tables);
    ProcessNoteEdges(gens, notes, i, tables);
    BalancedIgnoresOthers(gens, notes, i, tables, es, more, KeysFrom(notes, i + 1), false);
    forall k | i < k < |notes| && !notes[k].isRest
      ensures Balanced(gens, notes, k, tables, es + more)
    {
      BalancedIgnoresOthers(gens, notes, k, tables, more, es, {idx}, true);
    }
  }

  /** The edges `es` from position `i` are those of note `i`, if it is
      sung, followed by those from `i + 1`, which belong to later notes. */
  lemma AssembleUnfold(gens: seq<Generator>, notes: seq<Note>, i: nat, tables: Tables, es: seq<Edge>)
      returns (mine: seq<Edge>, more: seq<Edge>)
    requires i < |notes|
    requires Assemble(gens, notes, i, tables) == Ok(es)
    ensures Assemble(gens, notes, i + 1, tables) == Ok(more)
    ensures Owned(more, KeysFrom(notes, i + 1))
    ensures notes[i].isRest ==> es == more
    ensures !notes[i].isRest ==> ProcessNote(gens, notes, i, tables) == Ok(mine) && es == mine + more
  {
    more := Assemble(gens, notes, i + 1, tables).value;
    mine := if notes[i].isRest then [] else ProcessNote(gens, notes, i, tables).value;
  }

  /** Past the last note there is nothing to balance. */
  lemma NothingLeftToBalance(gens: seq<Generator>, notes: seq<Note>, i: nat, tables: Tables, es: seq<Edge>)
    requires i == |notes|
    ensures AllBalanced(gens, notes, i, tables, es)
  {
  }

  /** One step of the induction below, stated without the second pass:
      `es` is note `i`'s edges `mine`, if it is sung, followed by `more`. */
  lemma AllBalancedStep(gens: seq<Generator>, notes: seq<Note>, i: nat, tables: Tables,
                        es: seq<Edge>, mine: seq<Edge>, more: seq<Edge>)
    requires i < |notes| && DistinctIndices(notes)
    requires notes[i].isRest ==> es == more
    requires !notes[i].isRest ==> ProcessNote(gens, notes, i, tables) == Ok(mine) && es == mine + more
    requires Owned(more, KeysFrom(notes, i + 1))
    requires AllBalanced(gens, notes, i + 1, tables, more)
    ensures AllBalanced(gens, notes, i, tables, es)
  {
    if !notes[i].isRest {
      BalancedStep(gens, notes, i, tables, mine, more);
    }
  }

  /** With distinct indices, each note from position `i` on is balanced in
      the edges `es` the second pass produces from `i`. */
  lemma {:induction false} AssembleBalanced(gens: seq<Generator>, notes: seq<Note>, i: nat, tables: Tables, es: seq<Edge>)
    requires i <= |notes| && DistinctIndices(notes)
    requires Assemble(gens, notes, i, tables) == Ok(es)
    ensures AllBalanced(gens, notes, i, tables, es)
    decreases |notes| - i, 1
  {
    if i < |notes| {
      AssembleBalancedAt(gens, notes, i, tables, es);
    } else {
      NothingLeftToBalance(gens, notes, i, tables, es);
    }
  }

  /** The inductive case of `AssembleBalanced`: position `i` holds a note. */
  lemma {:induction false} AssembleBalancedAt(gens: seq<Generator>, notes: seq<Note>, i: nat, tables: Tables, es: seq<Edge>)
    requires i < |notes| && DistinctIndices(notes)
    requires Assemble(gens, notes, i, tables) == Ok(es)
    ensures AllBalanced(gens, notes, i, tables, es)
    decreases |notes| - i, 0
  {
    var mine, more := AssembleUnfold(gens, notes, i, tables, es);
    AssembleBalanced(gens, notes, i + 1, tables, more);
    AllBalancedStep(gens, notes, i, tables, es, mine, more);
  }

  /** Every non-rest note of a successful call is balanced in the returned
      graph: its sound state sends out total probability within 0.01 of 1,
      exactly what its generators proposed. */
  lemma GenerateConserves(gens: seq<Generator>, notes: seq<Note>, k: nat)
    requires k < |notes| && !notes[k].isRest
    ensures Generate(gens, notes).Ok? ==>
              var m := Generate(gens, notes).value.model;
              Balanced(gens, notes, k, m.tables, m.edges)
  {
    if Generate(gens, notes).Ok? {
      var tables := CreateStates(notes).value;
      AssembleBalanced(gens, notes, 0, tables, Generate(gens, notes).value.model.edges);
    }
  }

  /** A balanced note's exits keep the ratios of its via-silence
      proposals. */
  lemma BalancedKeepsRatios(gens: seq<Generator>, notes: seq<Note>, k: nat, tables: Tables, es: seq<Edge>, i: nat, j: nat)
    requires k < |notes| && Balanced(gens, notes, k, tables, es)
    ensures |From(es, Silence(notes[k].index))| == |ViaEdges(Proposals(gens, notes, k, 1.0))| + 1
    ensures var out := From(es, Silence(notes[k].index));
            var via := ViaEdges(Proposals(gens, notes, k, 1.0));
            i < |via| && j < |via| ==>
              Proportional(out[i + 1].weight, via[i].probability, out[j + 1].weight, via[j].probability)
  {
    var p := Proposals(gens, notes, k, 1.0);
    var via := ViaEdges(p);
    var out := From(es, Silence(notes[k].index));
    ViaEdgesPositive(p, tables.sound);
    if i < |via| && j < |via| {
      RescaledExitsKeepRatios(out[1..], notes[k].index, via, i, j);
    }
  }

  /** In every model returned, the exits of a sung note's silence state
      keep the ratios of the via-silence proposals they come from: the
      edges leaving the silence state are the self-loop, then exit `i` for
      proposal `i`. */
  lemma GenerateKeepsRatios(gens: seq<Generator>, notes: seq<Note>, k: nat, i: nat, j: nat)
    requires k < |notes| && !notes[k].isRest
    ensures Generate(gens, notes).Ok? ==>
              var m := Generate(gens, notes).value.model;
              |From(m.edges, Silence(notes[k].index))| == |ViaEdges(Proposals(gens, notes, k, 1.0))| + 1
    ensures Generate(gens, notes).Ok? ==>
              var m := Generate(gens, notes).value.model;
              var out := From(m.edges, Silence(notes[k].index));
              var via := ViaEdges(Proposals(gens, notes, k, 1.0));
              i < |via| && j < |via| ==>
                Proportional(out[i + 1].weight, via[i].probability, out[j + 1].weight, via[j].probability)
  {
    if Generate(gens, notes).Ok? {
      var m := Generate(gens, notes).value.model;
      GenerateConserves(gens, notes, k);
      BalancedKeepsRatios(gens, notes, k, m.tables, m.edges, i, j);
    }
  }

  /** A sequence that ends with a non-rest note never yields a model: the
      last note has no silence state, and processing it fails at the
      latest when that state is looked up. */
  lemma LastNoteFails(gens: seq<Generator>, notes: seq<Note>)
    requires |notes| > 0 && !notes[|notes| - 1].isRest
    ensures Generate(gens, notes).Fail?
  {
    var last := |notes| - 1;
    if DistinctIndices(notes) {
      var tables := CreateStates(notes).value;
      StatesOfNote(notes, tables, last);
      assert ProcessNote(gens, notes, last, tables).Fail?;
    }
  }
}

=== FILE: hmm_graph.dfy ===
/** The data the generator reads and builds: notes, generator results,
    state identities and the weighted edge list of the hidden Markov model.

    Edges are recorded at their target state in the C# code (one incoming
    list per state); here the model keeps every edge of the call, in the
    order they were added, in one sequence, and a state's incoming list is
    the edges whose target it is. An edge's `weight` is the probability
    whose natural logarithm the C# code stores: weight 0.0 stands for
    `Math.Log(0)`, negative infinity.
 */
module HmmGraph {
  import opened Outcome

  /** A note of the score: its key in the state tables, whether it is a
      rest, and its note number (pitch class, documented as [0, 11]). */
  datatype Note = Note(index: int, isRest: bool, noteNumber: int)

  /** One proposal of a probability generator: a transition towards the
      note keyed `toNoteIndex`, taken directly and/or through the current
      note's silence state. A zero field proposes nothing. */
  datatype GenResult = GenResult(toNoteIndex: int, direct: real, viaSilence: real)

  /** A `ProbabilityGenerator`: given the note list, the position of the
      current note in it (the linked-list node of the C# code) and the
      probability still unallocated, returns proposals or `None` (`null`,
      "no opinion"). */
  type Generator = (seq<Note>, nat, real) -> Option<seq<GenResult>>

  /** State identity: the start state, and per note key a sound
      (emitting) state and a silence (no-sound) state. */
  datatype StateId = Start | Sound(note: int) | Silence(note: int)

  datatype Edge = Edge(source: StateId, target: StateId, weight: real)

  /** The state tables built by the first pass, keyed by note index. */
  datatype Tables = Tables(sound: map<int, Note>, silence: map<int, Note>)

  /** The finished model: the states registered with `AddState` (only the
      start state), the state tables and every edge added. */
  datatype HmmModel = HmmModel(registered: seq<StateId>, tables: Tables, edges: seq<Edge>)

  /** `PitchHmmGenerationResult`: the model and its start state. */
  datatype GenerationResult = GenerationResult(model: HmmModel, start: StateId)

  /** Sum of the weights of a list of edges. */
  function Sum(es: seq<Edge>): real
  {
    if es == [] then 0.0 else Sum(es[..|es| - 1]) + es[|es| - 1].weight
  }

  /** The edges leaving `s`, in order. */
  function From(es: seq<Edge>, s: StateId): seq<Edge>
  {
    if es == [] then []
    else
      var last := es[|es| - 1];
      From(es[..|es| - 1], s) + (if last.source == s then [last] else [])
  }

  /** The edges from `s` to `t`, in order. */
  function Between(es: seq<Edge>, s: StateId, t: StateId): seq<Edge>
  {
    if es == [] then []
    else
      var last := es[|es| - 1];
      Between(es[..|es| - 1], s, t) + (if last.source == s && last.target == t then [last] else [])
  }

  /** Total probability leaving `s`. */
  function OutMass(es: seq<Edge>, s: StateId): real
  {
    Sum(From(es, s))
  }

  lemma SumSnoc(es: seq<Edge>, e: Edge)
    ensures Sum(es + [e]) == Sum(es) + e.weight
  {
    assert (es + [e])[..|es|] == es;
  }

  lemma {:induction false} SumAppend(a: seq<Edge>, b: seq<Edge>)
    ensures Sum(a + b) == Sum(a) + Sum(b)
    decreases |b|
  {
    if b == [] {
      assert a + b == a;
    } else {
      var b' := b[..|b| - 1];
      assert (a + b)[..|a + b| - 1] == a + b';
      SumAppend(a, b');
    }
  }

  lemma FromSnoc(es: seq<Edge>, x: Edge, s: StateId)
    ensures From(es + [x], s) == From(es, s) + (if x.source == s then [x] else [])
  {
    assert (es + [x])[..|es|] == es;
  }

  lemma BetweenSnoc(es: seq<Edge>, x: Edge, s: StateId, t: StateId)
    ensures Between(es + [x], s, t) == Between(es, s, t) + (if x.source == s && x.target == t then [x] else [])
  {
    assert (es + [x])[..|es|] == es;
  }

  lemma {:induction false} FromAppend(a: seq<Edge>, b: seq<Edge>, s: StateId)
    ensures From(a + b, s) == From(a, s) + From(b, s)
    decreases |b|
  {
    if b == [] {
      assert a + b == a;
    } else {
      var b', x := b[..|b| - 1], b[|b| - 1];
      assert b == b' + [x];
      assert a + b == (a + b') + [x];
      FromSnoc(a + b', x, s);
      FromSnoc(b', x, s);
      FromAppend(a, b', s);
    }
  }

  lemma {:induction false} BetweenAppend(a: seq<Edge>, b: seq<Edge>, s: StateId, t: StateId)
    ensures Between(a + b, s, t) == Between(a, s, t) + Between(b, s, t)
    decreases |b|
  {
    if b == [] {
      assert a + b == a;
    } else {
      var b', x := b[..|b| - 1], b[|b| - 1];
      assert b == b' + [x];
      assert a + b == (a + b') + [x];
      BetweenSnoc(a + b', x, s, t);
      BetweenSnoc(b', x, s, t);
      BetweenAppend(a, b', s, t);
    }
  }

  /** Out-mass is additive over concatenated edge lists. */
  lemma OutMassAppend(a: seq<Edge>, b: seq<Edge>, s: StateId)
    ensures OutMass(a + b, s) == OutMass(a, s) + OutMass(b, s)
  {
    FromAppend(a, b, s);
    SumAppend(From(a, s), From(b, s));
  }

  lemma BetweenMassAppend(a: seq<Edge>, b: seq<Edge>, s: StateId, t: StateId)
    ensures Sum(Between(a + b, s, t)) == Sum(Between(a, s, t)) + Sum(Between(b, s, t))
  {
    BetweenAppend(a, b, s, t);
    SumAppend(Between(a, s, t), Between(b, s, t));
  }

  /** Filtering a list whose edges all leave `s` keeps it whole. */
  lemma {:induction false} FromAll(es: seq<Edge>, s: StateId)
    requires forall e :: e in es ==> e.source == s
    ensures From(es, s) == es
    decreases |es|
  {
    if es != [] {
      var init := es[..|es| - 1];
      var last := es[|es| - 1];
      assert forall e :: e in init ==> e in es;
      FromAll(init, s);
      assert last in es;
      assert From(es, s) == From(init, s) + [last];
      assert es == init + [last];
    }
  }

  /** Filtering a list none of whose edges leaves `s` empties it. */
  lemma {:induction false} FromNone(es: seq<Edge>, s: StateId, t: StateId)
    requires forall e :: e in es ==> e.source != s
    ensures From(es, s) == []
    ensures Between(es, s, t) == []
    decreases |es|
  {
    if es != [] {
      var init := es[..|es| - 1];
      assert forall e :: e in init ==> e in es;
      assert es[|es| - 1] in es;
      FromNone(init, s, t);
    }
  }
}

=== FILE: note_assembly.dfy ===
/** The work `Generate` does for one non-rest note in its second pass:
    run the generators, check the probability budget, then connect the
    sound state to the silence state, add the silence self-loop and the
    rescaled exits.
 */
module NoteAssembly {
  import opened Outcome
  import opened HmmGraph
  import opened Transitions
  import opened SilenceWiring

  /** Every edge added for the note keyed `src` leaves one of that note's
      two states and enters a state that exists (never the start state). */
  ghost predicate EdgesOfNote(es: seq<Edge>, src: int, tables: Tables)
  {
    forall e :: e in es ==>
      && (e.source == Sound(src) || e.source == Silence(src))
      && (e.target.Sound? ==> e.target.note in tables.sound)
      && (e.target.Silence? ==> e.target.note == src && src in tables.silence)
      && !e.target.Start?
  }

  /** The silence state of note `src` either is entered with weight 0
      (`Math.Log(0)`) and then has only its 0.3 self-loop, or is entered
      with positive weight and then sends out exactly probability 1. */
  ghost predicate SilenceMassOk(es: seq<Edge>, src: int)
  {
    var entry := Sum(Between(es, Sound(src), Silence(src)));
    || (entry == 0.0 && OutMass(es, Silence(src)) == SelfLoop)
    || (entry > 0.0 && OutMass(es, Silence(src)) == 1.0)
  }

  /** The edges that connect the note's silence state: the entry from the
      sound state with the via-silence total, then the self-loop. */
  function Wiring(src: int, total: real): seq<Edge>
  {
    [Edge(Sound(src), Silence(src), total), Edge(Silence(src), Silence(src), SelfLoop)]
  }

  /** What note `src`'s two states send out in `es`, in order: the sound
      state the direct edges `direct`, then the entry into its silence
      state weighted with the via-silence total; the silence state its
      0.3 self-loop, then the rescaled exits for the deferred proposals
      `via`. */
  ghost predicate WiredAs(es: seq<Edge>, src: int, direct: seq<Edge>, via: seq<ViaEdge>)
  {
    && From(es, Sound(src)) == direct + [Edge(Sound(src), Silence(src), SumVia(via))]
    && From(es, Silence(src)) != []
    && From(es, Silence(src))[0] == Edge(Silence(src), Silence(src), SelfLoop)
    && RescaledExits(From(es, Silence(src))[1..], src, via)
  }

  /** Budget check and silence wiring, after all generators have run. The
      allocated mass (direct plus via-silence) must lie within 0.01 of 1:
      above is one error, below another. The silence state is looked up
      only after the check. With no via-silence mass the sound-to-silence
      edge gets weight 0 (`Math.Log(0)`), the self-loop is still added and
      there are no exits. It succeeds exactly when the mass is in range, the
      silence state exists and every via-silence target has a sound state. */
  function FinishNote(acc: NoteAcc, src: int, tables: Tables): (out: Result<seq<Edge>>)
    requires Wf(acc, src, tables.sound)
    ensures out == Fail(ProbabilityExceedsOne) <==> Sum(acc.edges) + SumVia(acc.via) > 1.0 + Margin
    ensures out == Fail(ProbabilityNotOne) <==> Sum(acc.edges) + SumVia(acc.via) < 1.0 - Margin
    ensures 1.0 - Margin <= Sum(acc.edges) + SumVia(acc.via) <= 1.0 + Margin && src !in tables.silence
            ==> out == Fail(KeyNotFound)
    ensures 1.0 - Margin <= Sum(acc.edges) + SumVia(acc.via) <= 1.0 + Margin && out.Fail?
            ==> out.error == KeyNotFound
    ensures out.Ok? <==> && 1.0 - Margin <= Sum(acc.edges) + SumVia(acc.via) <= 1.0 + Margin
                         && src in tables.silence
                         && (forall v :: v in acc.via ==> v.toNoteIndex in tables.sound)
    ensures out.Ok? ==> acc.edges <= out.value
    ensures out.Ok? ==> EdgesOfNote(out.value, src, tables)
    ensures out.Ok? && acc.via == [] ==>
              out.value == acc.edges + [Edge(Sound(src), Silence(src), 0.0), Edge(Silence(src), Silence(src), SelfLoop)]
  {
    SumViaPositive(acc.via);
    var remaining := acc.remaining - acc.viaTotal;
    if remaining < -Margin then Fail(ProbabilityExceedsOne)
    else if remaining > Margin then Fail(ProbabilityNotOne)
    else if src !in tables.silence then Fail(KeyNotFound)
    else
      var exits :- SilenceExits(acc.via, src, acc.viaTotal, tables.sound);
      WiredEdgesOfNote(acc.edges, src, acc.viaTotal, exits, tables);
      Ok(acc.edges + Wiring(src, acc.viaTotal) + exits)
  }

  lemma WiredEdgesOfNote(direct: seq<Edge>, src: int, total: real, exits: seq<Edge>, tables: Tables)
    requires src in tables.silence
    requires forall e :: e in direct ==> e.source == Sound(src) && e.target.Sound? && e.target.note in tables.sound
    requires forall k :: 0 <= k < |exits| ==>
               exits[k].source == Silence(src) && exits[k].target.Sound? && exits[k].target.note in tables.sound
    ensures EdgesOfNote(direct + Wiring(src, total) + exits, src, tables)
  {
    var out := direct + Wiring(src, total) + exits;
    forall e | e in out
      ensures && (e.source == Sound(src) || e.source == Silence(src))
              && (e.target.Sound? ==> e.target.note in tables.sound)
              && (e.target.Silence? ==> e.target.note == src && src in tables.silence)
              && !e.target.Start?
    {
      if e in exits {
        var k :| 0 <= k < |exits| && exits[k] == e;
      }
    }
  }

  lemma FromSingle(x: Edge, s: StateId, t: StateId)
    ensures From([x], s) == if x.source == s then [x] else []
    ensures Between([x], s, t) == if x.source == s && x.target == t then [x] else []
  {
    assert [x][..0] == [];
  }

  lemma {:induction false} BetweenNoTarget(es: seq<Edge>, s: StateId, t: StateId)
    requires forall e :: e in es ==> e.target != t
    ensures Between(es, s, t) == []
    decreases |es|
  {
    if es != [] {
      var init := es[..|es| - 1];
      assert forall e :: e in init ==> e in es;
      assert es[|es| - 1] in es;
      BetweenNoTarget(init, s, t);
    }
  }

  /** The edges that leave `s` in a list made of three parts. */
  lemma FromThree(x: seq<Edge>, y: seq<Edge>, z: seq<Edge>, s: StateId)
    ensures From(x + y + z, s) == From(x, s) + From(y, s) + From(z, s)
  {
    FromAppend(x, y, s);
    FromAppend(x + y, z, s);
  }

  /** The wiring's two edges, filtered. */
  lemma WiringFilters(src: int, total: real)
    ensures From(Wiring(src, total), Sound(src)) == [Edge(Sound(src), Silence(src), total)]
    ensures From(Wiring(src, total), Silence(src)) == [Edge(Silence(src), Silence(src), SelfLoop)]
    ensures Between(Wiring(src, total), Sound(src), Silence(src)) == [Edge(Sound(src), Silence(src), total)]
  {
    var a := Edge(Sound(src), Silence(src), total);
    var b := Edge(Silence(src), Silence(src), SelfLoop);
    assert Wiring(src, total) == [a] + [b];
    FromSingle(a, Sound(src), Silence(src));
    FromSingle(b, Sound(src), Silence(src));
    FromSingle(a, Silence(src), Silence(src));
    FromSingle(b, Silence(src), Silence(src));
    FromAppend([a], [b], Sound(src));
    FromAppend([a], [b], Silence(src));
    BetweenAppend([a], [b], Sound(src), Silence(src));
  }

  /** The sound state of the note sends out the direct mass plus the
      via-silence total. */
  lemma WiredSoundMass(direct: seq<Edge>, src: int, total: real, exits: seq<Edge>)
    requires forall e :: e in direct ==> e.source == Sound(src)
    requires forall e :: e in exits ==> e.source == Silence(src)
    ensures OutMass(direct + Wiring(src, total) + exits, Sound(src)) == Sum(direct) + total
  {
    FromThree(direct, Wiring(src, total), exits, Sound(src));
    FromAll(direct, Sound(src));
    FromNone(exits, Sound(src), Silence(src));
    WiringFilters(src, total);
    assert From(direct + Wiring(src, total) + exits, Sound(src)) == direct + [Edge(Sound(src), Silence(src), total)];
    SumSnoc(direct, Edge(Sound(src), Silence(src), total));
  }

  /** The only edge from the sound state into the silence state is the
      entry edge, weighted with the via-silence total. */
  lemma WiredEntryMass(direct: seq<Edge>, src: int, total: real, exits: seq<Edge>)
    requires forall e :: e in direct ==> e.target.Sound?
    requires forall e :: e in exits ==> e.source == Silence(src)
    ensures Sum(Between(direct + Wiring(src, total) + exits, Sound(src), Silence(src))) == total
  {
    var w := Wiring(src, total);
    BetweenAppend(direct, w, Sound(src), Silence(src));
    BetweenAppend(direct + w, exits, Sound(src), Silence(src));
    BetweenNoTarget(direct, Sound(src), Silence(src));
    FromNone(exits, Sound(src), Silence(src));
    WiringFilters(src, total);
    SumSnoc([], Edge(Sound(src), Silence(src), total));
  }

  /** The silence state sends out the self-loop plus the exits. */
  lemma WiredSilenceMass(direct: seq<Edge>, src: int, total: real, exits: seq<Edge>)
    requires forall e :: e in direct ==> e.source == Sound(src)
    requires forall e :: e in exits ==> e.source == Silence(src)
    ensures OutMass(direct + Wiring(src, total) + exits, Silence(src)) == SelfLoop + Sum(exits)
  {
    FromThree(direct, Wiring(src, total), exits, Silence(src));
    FromNone(direct, Silence(src), Silence(src));
    FromAll(exits, Silence(src));
    WiringFilters(src, total);
    var b := Edge(Silence(src), Silence(src), SelfLoop);
    assert From(direct + Wiring(src, total) + exits, Silence(src)) == [b] + exits;
    SumAppend([b], exits);
    SumSnoc([], b);
  }

  /** What the two states of a wired note send out: the direct edges and
      the entry, and the self-loop and the exits. */
  lemma WiredFrom(direct: seq<Edge>, src: int, total: real, exits: seq<Edge>)
    requires forall e :: e in direct ==> e.source == Sound(src)
    requires forall e :: e in exits ==> e.source == Silence(src)
    ensures From(direct + Wiring(src, total) + exits, Sound(src)) == direct + [Edge(Sound(src), Silence(src), total)]
    ensures From(direct + Wiring(src, total) + exits, Silence(src)) == [Edge(Silence(src), Silence(src), SelfLoop)] + exits
  {
    FromThree(direct, Wiring(src, total), exits, Sound(src));
    FromThree(direct, Wiring(src, total), exits, Silence(src));
    FromAll(direct, Sound(src));
    FromAll(exits, Silence(src));
    FromNone(exits, Sound(src), Silence(src));
    FromNone(direct, Silence(src), Silence(src));
    WiringFilters(src, total);
  }

  /** The edges of a finished note, one by one: the direct edges as
      recorded, the entry into the silence state with the deferred total,
      the self-loop, then one rescaled exit per deferred proposal, in
      order. */
  lemma FinishNoteEdges(acc: NoteAcc, src: int, tables: Tables)
    requires Wf(acc, src, tables.sound)
    requires FinishNote(acc, src, tables).Ok?
    ensures var es := FinishNote(acc, src, tables).value;
            && |es| == |acc.edges| + 2 + |acc.via|
            && es[..|acc.edges| + 2] == acc.edges + Wiring(src, SumVia(acc.via))
            && RescaledExits(es[|acc.edges| + 2..], src, acc.via)
            && WiredAs(es, src, acc.edges, acc.via)
  {
    SumViaPositive(acc.via);
    var es := FinishNote(acc, src, tables).value;
    var exits := SilenceExits(acc.via, src, acc.viaTotal, tables.sound).value;
    var front := acc.edges + Wiring(src, acc.viaTotal);
    assert es == front + exits;
    assert es[..|front|] == front;
    assert es[|front|..] == exits;
    if acc.via != [] {
      SilenceExitsRescaled(acc.via, src, tables.sound);
    }
    assert forall e :: e in exits ==> e.source == Silence(src) by {
      forall e | e in exits ensures e.source == Silence(src) {
        var k :| 0 <= k < |exits| && exits[k] == e;
      }
    }
    WiredFrom(acc.edges, src, acc.viaTotal, exits);
    assert From(es, Silence(src))[1..] == exits;
  }

  /** Where the mass of a finished note goes: out of the sound state
      exactly the allocated mass, and out of the silence state as
      `SilenceMassOk` says. */
  lemma FinishNoteMass(acc: NoteAcc, src: int, tables: Tables)
    requires Wf(acc, src, tables.sound)
    requires FinishNote(acc, src, tables).Ok?
    ensures var es := FinishNote(acc, src, tables).value;
            && OutMass(es, Sound(src)) == Sum(acc.edges) + SumVia(acc.via)
            && Sum(Between(es, Sound(src), Silence(src))) == SumVia(acc.via)
            && SilenceMassOk(es, src)
  {
    SumViaPositive(acc.via);
    var exits := SilenceExits(acc.via, src, acc.viaTotal, tables.sound).value;
    assert forall e :: e in exits ==> e.source == Silence(src) by {
      forall e | e in exits ensures e.source == Silence(src) {
        var k :| 0 <= k < |exits| && exits[k] == e;
      }
    }
    WiredSoundMass(acc.edges, src, acc.viaTotal, exits);
    WiredEntryMass(acc.edges, src, acc.viaTotal, exits);
    WiredSilenceMass(acc.edges, src, acc.viaTotal, exits);
    if acc.via != [] {
      SilenceMassIsOne(acc.via, src, tables.sound);
    }
  }

  /** All the work for the non-rest note at position `pos`, judged against
      what the generators propose for it (`Proposals`, each generator handed
      what the direct proposals before it left of 1). The call succeeds
      exactly when the note has both states, every proposal is acceptable,
      the proposed mass, direct plus via-silence, lies within 0.01 of 1, and
      every via-silence target has a sound state. A failure reports the
      first check that fails: a missing sound state as a missing key, an
      unacceptable proposal as that proposal's error, too much and too
      little mass as their two errors, and a missing silence state or exit
      target as a missing key. */
  function ProcessNote(gens: seq<Generator>, notes: seq<Note>, pos: nat, tables: Tables): (out: Result<seq<Edge>>)
    requires pos < |notes| && !notes[pos].isRest
    ensures notes[pos].index !in tables.sound ==> out == Fail(KeyNotFound)
    ensures var p := Proposals(gens, notes, pos, 1.0);
            notes[pos].index in tables.sound && !(forall r :: r in p ==> Acceptable(r, tables.sound)) ==>
              out.Fail? && ProposalError(out.error)
    ensures var p := Proposals(gens, notes, pos, 1.0);
            notes[pos].index in tables.sound && (forall r :: r in p ==> Acceptable(r, tables.sound)) ==>
              && (out == Fail(ProbabilityExceedsOne) <==> DirectSum(p) + ViaSum(p) > 1.0 + Margin)
              && (out == Fail(ProbabilityNotOne) <==> DirectSum(p) + ViaSum(p) < 1.0 - Margin)
              && (1.0 - Margin <= DirectSum(p) + ViaSum(p) <= 1.0 + Margin && out.Fail? ==> out.error == KeyNotFound)
    ensures var p := Proposals(gens, notes, pos, 1.0);
            out.Ok? <==> && notes[pos].index in tables.sound
                         && notes[pos].index in tables.silence
                         && (forall r :: r in p ==> Acceptable(r, tables.sound))
                         && 1.0 - Margin <= DirectSum(p) + ViaSum(p) <= 1.0 + Margin
                         && (forall v :: v in ViaEdges(p) ==> v.toNoteIndex in tables.sound)
    ensures out.Ok? ==> EdgesOfNote(out.value, notes[pos].index, tables)
  {
    var src := notes[pos].index;
    if src !in tables.sound then Fail(KeyNotFound)
    else
      var p := Proposals(gens, notes, pos, 1.0);
      RunGeneratorsIsProposals(gens, notes, pos, tables.sound, Initial);
      var acc :- RunGenerators(gens, notes, pos, tables.sound, Initial);
      ApplyResultsKeepsWf(Initial, src, tables.sound, p);
      FinishNote(acc, src, tables)
  }

  /** What the generators of the note at `pos` leave, when they all
      succeed: exactly the proposed direct edges and via-silence proposals,
      with the bookkeeping invariant holding. */
  lemma GeneratorsAccumulate(gens: seq<Generator>, notes: seq<Note>, pos: nat, sound: map<int, Note>)
    requires pos < |notes|
    requires RunGenerators(gens, notes, pos, sound, Initial).Ok?
    ensures var acc := RunGenerators(gens, notes, pos, sound, Initial).value;
            var p := Proposals(gens, notes, pos, 1.0);
            && Wf(acc, notes[pos].index, sound)
            && acc.edges == DirectEdges(notes[pos].index, p)
            && acc.via == ViaEdges(p)
            && Sum(acc.edges) == DirectSum(p)
            && SumVia(acc.via) == ViaSum(p)
  {
    RunGeneratorsIsProposals(gens, notes, pos, sound, Initial);
    FromInitial(notes[pos].index, sound, Proposals(gens, notes, pos, 1.0));
  }

  /** A successful `ProcessNote` is `FinishNote` on what the generators
      left, and that accumulator holds exactly the proposed masses. */
  lemma ProcessNoteIsFinish(gens: seq<Generator>, notes: seq<Note>, pos: nat, tables: Tables)
    requires pos < |notes| && !notes[pos].isRest
    requires ProcessNote(gens, notes, pos, tables).Ok?
    ensures RunGenerators(gens, notes, pos, tables.sound, Initial).Ok?
    ensures var acc := RunGenerators(gens, notes, pos, tables.sound, Initial).value;
            var p := Proposals(gens, notes, pos, 1.0);
            && Wf(acc, notes[pos].index, tables.sound)
            && acc.edges == DirectEdges(notes[pos].index, p)
            && acc.via == ViaEdges(p)
            && Sum(acc.edges) == DirectSum(p)
            && SumVia(acc.via) == ViaSum(p)
            && ProcessNote(gens, notes, pos, tables) == FinishNote(acc, notes[pos].index, tables)
  {
    assert RunGenerators(gens, notes, pos, tables.sound, Initial).Ok?;
    GeneratorsAccumulate(gens, notes, pos, tables.sound);
  }

  /** The edges of a processed note, one by one: the proposed direct
      edges in proposal order, the entry into the silence state with the
      proposed via-silence mass, the 0.3 self-loop, then one exit per
      via-silence proposal, in order, to the proposed note and with the
      proposal's share of 0.7. */
  lemma ProcessNoteEdges(gens: seq<Generator>, notes: seq<Note>, pos: nat, tables: Tables)
    requires pos < |notes| && !notes[pos].isRest
    requires ProcessNote(gens, notes, pos, tables).Ok?
    ensures var p := Proposals(gens, notes, pos, 1.0);
            var src := notes[pos].index;
            var es := ProcessNote(gens, notes, pos, tables).value;
            var d := DirectEdges(src, p);
            && |es| == |d| + 2 + |ViaEdges(p)|
            && es[..|d| + 2] == d + Wiring(src, ViaSum(p))
            && RescaledExits(es[|d| + 2..], src, ViaEdges(p))
            && WiredAs(es, src, d, ViaEdges(p))
  {
    var src := notes[pos].index;
    var p := Proposals(gens, notes, pos, 1.0);
    ProcessNoteIsFinish(gens, notes, pos, tables);
    FinishNoteEdges(RunGenerators(gens, notes, pos, tables.sound, Initial).value, src, tables);
  }

  /** Where the mass of a processed note goes: its sound state sends out
      exactly the proposed mass, and its silence state behaves as
      `SilenceMassOk` says. */
  lemma ProcessNoteMass(gens: seq<Generator>, notes: seq<Note>, pos: nat, tables: Tables)
    requires pos < |notes| && !notes[pos].isRest
    requires ProcessNote(gens, notes, pos, tables).Ok?
    ensures var p := Proposals(gens, notes, pos, 1.0);
            var es := ProcessNote(gens, notes, pos, tables).value;
            && OutMass(es, Sound(notes[pos].index)) == DirectSum(p) + ViaSum(p)
            && Sum(Between(es, Sound(notes[pos].index), Silence(notes[pos].index))) == ViaSum(p)
            && SilenceMassOk(es, notes[pos].index)
  {
    ProcessNoteIsFinish(gens, notes, pos, tables);
    FinishNoteMass(RunGenerators(gens, notes, pos, tables.sound, Initial).value, notes[pos].index, tables);
  }
}

=== FILE: outcome.dfy ===
/** Failure-compatible wrappers shared by the whole model.

    Every `throw` of the C# code, and every dictionary lookup that
    misses, aborts the whole call; the model returns `Fail(kind)` instead.
 */
module Outcome {

  /** The exceptions the modelled code can raise, one constructor per
      distinct throw site (or per .NET exception raised implicitly). */
  datatype Error =
    | ArgumentNull              // ArgumentNullException
    | ArgumentInvalid           // ArgumentException (rest note given a sound emission)
    | DuplicateKey              // Dictionary.Add with a key already present
    | KeyNotFound               // Dictionary indexer with a missing key
    | IndexOutOfRange           // array indexed outside its bounds
    | InvalidDirectProbability  // DirectProbability outside [0, 1]
    | InvalidViaProbability     // ProbabilityViaNoSoundState outside [0, 1]
    | ProbabilityExceedsOne     // allocated mass above 1 + margin
    | ProbabilityNotOne         // allocated mass below 1 - margin

  /** C#'s nullable reference: `None` is `null`. */
  datatype Option<+T> = None | Some(value: T)

  datatype Result<+T> = Ok(value: T) | Fail(error: Error) {

    predicate IsFailure() {
      Fail?
    }

    function PropagateFailure<U>(): Result<U>
      requires Fail?
    {
      Fail(error)
    }

    function Extract(): T
      requires Ok?
    {
      value
    }
  }
}

=== FILE: scenarios.dfy ===
/** Small concrete runs of `Generate`, each showing one rule of the
    engine on a two-note score: a sung note keyed 0 followed by a rest.
 */
module Scenarios {
  import opened Outcome
  import opened HmmGraph
  import opened StateCreation
  import opened Transitions
  import opened SilenceWiring
  import opened NoteAssembly
  import opened PitchHmmGenerator

  /** A sung note keyed 0 (an A) followed by a rest keyed 1. */
  function Score(): seq<Note>
  {
    [Note(0, false, 9), Note(1, true, 0)]
  }

  /** A generator that always proposes the same list. */
  function Constant(rs: seq<GenResult>): Generator
  {
    (notes: seq<Note>, pos: nat, remaining: real) => Some(rs)
  }

  /** A generator that claims, as a direct transition to the note keyed 0,
      whatever it is told is left. */
  function TakeTheRest(): Generator
  {
    (notes: seq<Note>, pos: nat, remaining: real) => Some([GenResult(0, remaining, 0.0)])
  }

  /** An acceptable single proposal, applied: the direct edge and the
      deferred proposal it asks for are recorded. */
  lemma ApplyOne(acc: NoteAcc, src: int, sound: map<int, Note>, r: GenResult)
    requires Acceptable(r, sound) && r.direct != 0.0
    ensures ApplyResults(acc, src, sound, [r]).Ok?
    ensures ApplyResults(acc, src, sound, [r]).value
         == NoteAcc(acc.edges + [Edge(Sound(src), Sound(r.toNoteIndex), r.direct)], acc.remaining - r.direct,
                    acc.via + (if r.viaSilence != 0.0 then [ViaEdge(r.toNoteIndex, r.viaSilence)] else []),
                    acc.viaTotal + r.viaSilence)
  {
    assert [r][1..] == [];
  }

  /** The same for a proposal routed only through silence. */
  lemma ApplyOneVia(acc: NoteAcc, src: int, sound: map<int, Note>, r: GenResult)
    requires Acceptable(r, sound) && r.direct == 0.0 && r.viaSilence != 0.0
    ensures ApplyResults(acc, src, sound, [r]).Ok?
    ensures ApplyResults(acc, src, sound, [r]).value
         == NoteAcc(acc.edges, acc.remaining, acc.via + [ViaEdge(r.toNoteIndex, r.viaSilence)], acc.viaTotal + r.viaSilence)
  {
    assert [r][1..] == [];
  }

  /** A generator that answers is consulted on the current budget, and
      the rest run on what its proposals leave. */
  lemma RunFirst(gens: seq<Generator>, notes: seq<Note>, pos: nat, sound: map<int, Note>, acc: NoteAcc, rs: seq<GenResult>)
    requires pos < |notes| && gens != []
    requires gens[0](notes, pos, acc.remaining) == Some(rs)
    requires ApplyResults(acc, notes[pos].index, sound, rs).Ok?
    ensures RunGenerators(gens, notes, pos, sound, acc)
         == RunGenerators(gens[1..], notes, pos, sound, ApplyResults(acc, notes[pos].index, sound, rs).value)
  {
  }

  /** The state tables of the score: one sound and one silence state, both
      keyed 0. */
  lemma ScoreTables()
    ensures CreateStates(Score()) == Ok(Tables(map[0 := Score()[0]], map[0 := Score()[0]]))
  {
    var notes := Score();
    var t1 := Tables(map[0 := notes[0]], map[0 := notes[0]]);
    assert CreateStatesFrom(notes, 2, t1) == Ok(t1);
    assert CreateStatesFrom(notes, 1, t1) == Ok(t1);
  }

  /** 0.6 direct plus 0.6 through silence is 1.2: the call fails with the
      "exceeds 1" error, not the "not 1" one. */
  lemma OverfullNoteRejected()
    ensures Generate([Constant([GenResult(0, 0.6, 0.6)])], Score()) == Fail(ProbabilityExceedsOne)
  {
    var gens := [Constant([GenResult(0, 0.6, 0.6)])];
    var notes := Score();
    ScoreTables();
    var tables := CreateStates(notes).value;
    var acc := NoteAcc([Edge(Sound(0), Sound(0), 0.6)], 0.4, [ViaEdge(0, 0.6)], 0.6);
    ApplyOne(Initial, 0, tables.sound, GenResult(0, 0.6, 0.6));
    assert gens[0](notes, 0, Initial.remaining) == Some([GenResult(0, 0.6, 0.6)]);
    RunFirst(gens, notes, 0, tables.sound, Initial, [GenResult(0, 0.6, 0.6)]);
    assert gens[1..] == [];
    assert ApplyResults(Initial, 0, tables.sound, [GenResult(0, 0.6, 0.6)]).value == acc;
    assert RunGenerators(gens, notes, 0, tables.sound, Initial) == Ok(acc);
    assert ProcessNote(gens, notes, 0, tables) == Fail(ProbabilityExceedsOne);
  }

  /** 0.5 in all falls short of 1 by more than the margin: the "not 1"
      error. */
  lemma UnderfullNoteRejected()
    ensures Generate([Constant([GenResult(0, 0.5, 0.0)])], Score()) == Fail(ProbabilityNotOne)
  {
    var gens := [Constant([GenResult(0, 0.5, 0.0)])];
    var notes := Score();
    ScoreTables();
    var tables := CreateStates(notes).value;
    var acc := NoteAcc([Edge(Sound(0), Sound(0), 0.5)], 0.5, [], 0.0);
    ApplyOne(Initial, 0, tables.sound, GenResult(0, 0.5, 0.0));
    assert gens[0](notes, 0, Initial.remaining) == Some([GenResult(0, 0.5, 0.0)]);
    RunFirst(gens, notes, 0, tables.sound, Initial, [GenResult(0, 0.5, 0.0)]);
    assert gens[1..] == [];
    assert ApplyResults(Initial, 0, tables.sound, [GenResult(0, 0.5, 0.0)]).value == acc;
    assert RunGenerators(gens, notes, 0, tables.sound, Initial) == Ok(acc);
    assert ProcessNote(gens, notes, 0, tables) == Fail(ProbabilityNotOne);
  }

  /** The budget handed to a generator is not reduced by earlier
      via-silence proposals: after a first generator routes 0.5 through
      silence, a second one is still told 1.0 is left, claims it, and the
      note ends up over budget. */
  lemma ViaSilenceNotSubtractedEarly()
    ensures Generate([Constant([GenResult(0, 0.0, 0.5)]), TakeTheRest()], Score()) == Fail(ProbabilityExceedsOne)
  {
    var gens := [Constant([GenResult(0, 0.0, 0.5)]), TakeTheRest()];
    var notes := Score();
    ScoreTables();
    var tables := CreateStates(notes).value;
    var acc1 := NoteAcc([], 1.0, [ViaEdge(0, 0.5)], 0.5);
    var acc2 := NoteAcc([Edge(Sound(0), Sound(0), 1.0)], 0.0, [ViaEdge(0, 0.5)], 0.5);
    ApplyOneVia(Initial, 0, tables.sound, GenResult(0, 0.0, 0.5));
    assert gens[0](notes, 0, Initial.remaining) == Some([GenResult(0, 0.0, 0.5)]);
    RunFirst(gens, notes, 0, tables.sound, Initial, [GenResult(0, 0.0, 0.5)]);
    assert ApplyResults(Initial, 0, tables.sound, [GenResult(0, 0.0, 0.5)]).value == acc1;
    assert gens[1..][0](notes, 0, acc1.remaining) == Some([GenResult(0, 1.0, 0.0)]);
    ApplyOne(acc1, 0, tables.sound, GenResult(0, 1.0, 0.0));
    RunFirst(gens[1..], notes, 0, tables.sound, acc1, [GenResult(0, 1.0, 0.0)]);
    assert ApplyResults(acc1, 0, tables.sound, [GenResult(0, 1.0, 0.0)]).value == acc2;
    assert gens[1..][1..] == [];
    assert RunGenerators(gens, notes, 0, tables.sound, Initial) == Ok(acc2);
    assert ProcessNote(gens, notes, 0, tables) == Fail(ProbabilityExceedsOne);
  }

  /** With no via-silence proposal the silence state is still wired: the
      sound state enters it with weight 0 (`Math.Log(0)`), it keeps its
      0.3 self-loop, and it has no exits. */
  lemma NoViaSilenceStillWired()
    ensures Generate([TakeTheRest()], Score()).Ok?
    ensures Generate([TakeTheRest()], Score()).value.model.edges
         == [Edge(Sound(0), Sound(0), 1.0), Edge(Sound(0), Silence(0), 0.0), Edge(Silence(0), Silence(0), SelfLoop)]
  {
    var gens := [TakeTheRest()];
    var notes := Score();
    ScoreTables();
    var tables := CreateStates(notes).value;
    var acc := NoteAcc([Edge(Sound(0), Sound(0), 1.0)], 0.0, [], 0.0);
    assert gens[0](notes, 0, Initial.remaining) == Some([GenResult(0, 1.0, 0.0)]);
    ApplyOne(Initial, 0, tables.sound, GenResult(0, 1.0, 0.0));
    RunFirst(gens, notes, 0, tables.sound, Initial, [GenResult(0, 1.0, 0.0)]);
    assert gens[1..] == [];
    assert ApplyResults(Initial, 0, tables.sound, [GenResult(0, 1.0, 0.0)]).value == acc;
    assert RunGenerators(gens, notes, 0, tables.sound, Initial) == Ok(acc);
    SumSnoc([], Edge(Sound(0), Sound(0), 1.0));
    var es := [Edge(Sound(0), Sound(0), 1.0), Edge(Sound(0), Silence(0), 0.0), Edge(Silence(0), Silence(0), SelfLoop)];
    assert SilenceExits([], 0, 0.0, tables.sound) == Ok([]);
    assert Wf(acc, 0, tables.sound);
    assert 0 in tables.silence;
    assert FinishNote(acc, 0, tables).Ok?;
    assert acc.edges + [Edge(Sound(0), Silence(0), 0.0), Edge(Silence(0), Silence(0), SelfLoop)] == es;
    assert FinishNote(acc, 0, tables) == Ok(es);
    assert ProcessNote(gens, notes, 0, tables) == Ok(es);
    assert Assemble(gens, notes, 2, tables) == Ok([]);
    assert Assemble(gens, notes, 1, tables) == Ok([]);
    assert Assemble(gens, notes, 0, tables) == Ok(es);
  }

  /** Without the trailing rest the same generator cannot produce a model. */
  lemma SameNoteAloneFails()
    ensures Generate([TakeTheRest()], Score()[..1]).Fail?
  {
    LastNoteFails([TakeTheRest()], Score()[..1]);
  }
}

=== FILE: silence.dfy ===
/** Wiring of a note's silence state: the deferred via-silence proposals
    become exits of the silence state, rescaled so that, together with the
    fixed self-loop, the silence state's outgoing probabilities sum to 1.

    `Generate` adds `Math.Log(p) + (Math.Log(0.7) - Math.Log(total))`;
    the model keeps the probability `p * 0.7 / total` whose logarithm that
    is.
 */
module SilenceWiring {
  import opened Outcome
  import opened HmmGraph
  import opened Transitions

  /** Probability that the silence state loops on itself (noise keeps
      the decoder in silence). */
  const SelfLoop: real := 0.3

  /** The factor applied to every deferred proposal: the mass left by the
      self-loop over the total deferred mass. */
  function Scale(total: real): real
    requires total > 0.0
  {
    (1.0 - SelfLoop) / total
  }

  /** The exit probability for a deferred proposal `p` out of a total
      `total` of deferred mass. */
  function Renormalise(p: real, total: real): real
    requires total > 0.0
  {
    p * Scale(total)
  }

  /** `a` is to `p` as `b` is to `q` (stated without division, so that
      zero weights are allowed). */
  predicate Proportional(a: real, p: real, b: real, q: real)
  {
    a * q == b * p
  }

  /** Rescaling keeps the proportions between proposals: if `a` and `b`
      are the exits for `p` and `q`, then a/b is p/q. */
  lemma RenormalisePreservesRatio(p: real, q: real, total: real, a: real, b: real)
    requires total > 0.0
    requires a == Renormalise(p, total) && b == Renormalise(q, total)
    ensures Proportional(a, p, b, q)
  {
    var c := Scale(total);
    assert (p * c) * q == (q * c) * p;
  }

  /** The exits of the silence state of note `src`, one per deferred
      proposal in order; a proposal towards a note without a sound state
      fails the lookup. */
  function SilenceExits(via: seq<ViaEdge>, src: int, total: real, sound: map<int, Note>): (r: Result<seq<Edge>>)
    requires via == [] || total > 0.0
    ensures r.Ok? <==> forall v :: v in via ==> v.toNoteIndex in sound
    ensures r.Fail? ==> r.error == KeyNotFound
    ensures r.Ok? ==> |r.value| == |via|
    ensures r.Ok? ==> forall k :: 0 <= k < |via| ==>
              r.value[k] == Edge(Silence(src), Sound(via[k].toNoteIndex), Renormalise(via[k].probability, total))
    decreases |via|
  {
    if via == [] then Ok([])
    else
      var init := via[..|via| - 1];
      var last := via[|via| - 1];
      assert forall v :: v in via ==> v in init || v == last;
      var front :- SilenceExits(init, src, total, sound);
      if last.toNoteIndex !in sound then Fail(KeyNotFound)
      else Ok(front + [Edge(Silence(src), Sound(last.toNoteIndex), Renormalise(last.probability, total))])
  }

  /** Each of `exits` weighs the matching proposal's probability times a
      common factor `c`. */
  ghost predicate ScaledBy(exits: seq<Edge>, via: seq<ViaEdge>, c: real)
  {
    && |exits| == |via|
    && forall k :: 0 <= k < |via| ==> exits[k].weight == via[k].probability * c
  }

  /** Edges that scale the proposals by `c` sum to the proposals' total
      times `c`. */
  lemma {:induction false} SumScaled(exits: seq<Edge>, via: seq<ViaEdge>, c: real)
    requires ScaledBy(exits, via, c)
    ensures Sum(exits) == SumVia(via) * c
    decreases |via|
  {
    if via != [] {
      var n := |via| - 1;
      SumScaled(exits[..n], via[..n], c);
      MassStep(Sum(exits[..n]), exits[n].weight, SumVia(via[..n]), via[n].probability, c, Sum(exits), SumVia(via));
    }
  }

  /** The exits scale every proposal by the same factor. */
  lemma ExitsScaled(via: seq<ViaEdge>, src: int, total: real, sound: map<int, Note>)
    requires total > 0.0
    requires SilenceExits(via, src, total, sound).Ok?
    ensures ScaledBy(SilenceExits(via, src, total, sound).value, via, Scale(total))
  {
  }

  /** The exits sum to the deferred mass times the common factor. */
  lemma ExitsMass(via: seq<ViaEdge>, src: int, total: real, sound: map<int, Note>)
    requires total > 0.0
    requires SilenceExits(via, src, total, sound).Ok?
    ensures Sum(SilenceExits(via, src, total, sound).value) == SumVia(via) * Scale(total)
  {
    ExitsScaled(via, src, total, sound);
    SumScaled(SilenceExits(via, src, total, sound).value, via, Scale(total));
  }

  /** One step of `SumScaled`: scaling distributes over the last
      proposal. */
  lemma MassStep(front: real, w: real, a: real, p: real, c: real, all: real, mass: real)
    requires front == a * c && w == p * c
    requires all == front + w && mass == a + p
    ensures all == mass * c
  {
    assert (a + p) * c == a * c + p * c;
  }

  /** When the deferred mass is positive, the self-loop and the rescaled
      exits of the silence state sum to exactly 1. */
  lemma SilenceMassIsOne(via: seq<ViaEdge>, src: int, sound: map<int, Note>)
    requires SumVia(via) > 0.0
    requires SilenceExits(via, src, SumVia(via), sound).Ok?
    ensures SelfLoop + Sum(SilenceExits(via, src, SumVia(via), sound).value) == 1.0
  {
    ExitsMass(via, src, SumVia(via), sound);
    var t := SumVia(via);
    assert t * ((1.0 - SelfLoop) / t) == 1.0 - SelfLoop;
  }

  /** Any two exits keep the ratio of the proposals they come from. */
  lemma ExitsKeepRatios(via: seq<ViaEdge>, src: int, total: real, sound: map<int, Note>, i: nat, j: nat)
    requires total > 0.0
    requires SilenceExits(via, src, total, sound).Ok?
    requires i < |via| && j < |via|
    ensures var es := SilenceExits(via, src, total, sound).value;
            Proportional(es[i].weight, via[i].probability, es[j].weight, via[j].probability)
  {
    var es := SilenceExits(via, src, total, sound).value;
    RenormalisePreservesRatio(via[i].probability, via[j].probability, total, es[i].weight, es[j].weight);
  }

  /** `e` is the silence state's exit for the deferred proposal `v` of
      note `src`: it goes to the proposal's note and carries the
      proposal's share of the 0.7 the self-loop leaves (its weight times
      the deferred total is the probability times 0.7). */
  ghost predicate RescaledExit(e: Edge, src: int, v: ViaEdge, total: real)
  {
    && e.source == Silence(src)
    && e.target == Sound(v.toNoteIndex)
    && e.weight * total == v.probability * (1.0 - SelfLoop)
  }

  /** `exits` are the rescaled exits for `via`, one per proposal and in
      order. */
  ghost predicate RescaledExits(exits: seq<Edge>, src: int, via: seq<ViaEdge>)
  {
    && |exits| == |via|
    && forall k :: 0 <= k < |via| ==> RescaledExit(exits[k], src, via[k], SumVia(via))
  }

  /** The exit `SilenceExits` builds for one proposal is its rescaled
      exit. */
  lemma RenormalisedExit(e: Edge, src: int, v: ViaEdge, total: real)
    requires total > 0.0
    requires e == Edge(Silence(src), Sound(v.toNoteIndex), Renormalise(v.probability, total))
    ensures RescaledExit(e, src, v, total)
  {
    assert Scale(total) * total == 1.0 - SelfLoop;
  }

  /** The exits built from the deferred total are exactly the rescaled
      proposals. */
  lemma SilenceExitsRescaled(via: seq<ViaEdge>, src: int, sound: map<int, Note>)
    requires SumVia(via) > 0.0
    requires SilenceExits(via, src, SumVia(via), sound).Ok?
    ensures RescaledExits(SilenceExits(via, src, SumVia(via), sound).value, src, via)
  {
    var t := SumVia(via);
    var exits := SilenceExits(via, src, t, sound).value;
    forall k | 0 <= k < |via|
      ensures RescaledExit(exits[k], src, via[k], t)
    {
      RenormalisedExit(exits[k], src, via[k], t);
    }
  }

  /** Two weights that rescale `p` and `q` by the same nonzero total are
      proportional to them. */
  lemma CrossMultiply(a: real, b: real, p: real, q: real, t: real, c: real)
    requires t != 0.0 && a * t == p * c && b * t == q * c
    ensures Proportional(a, p, b, q)
  {
    assert (a * q) * t == (p * c) * q;
    assert (b * p) * t == (q * c) * p;
    assert (a * q - b * p) * t == 0.0;
  }

  /** Any two rescaled exits keep the ratio of the proposals they come
      from. */
  lemma RescaledExitsKeepRatios(exits: seq<Edge>, src: int, via: seq<ViaEdge>, i: nat, j: nat)
    requires RescaledExits(exits, src, via)
    requires forall v :: v in via ==> v.probability > 0.0
    requires i < |via| && j < |via|
    ensures Proportional(exits[i].weight, via[i].probability, exits[j].weight, via[j].probability)
  {
    SumViaPositive(via);
    assert RescaledExit(exits[i], src, via[i], SumVia(via));
    assert RescaledExit(exits[j], src, via[j], SumVia(via));
    CrossMultiply(exits[i].weight, exits[j].weight, via[i].probability, via[j].probability, SumVia(via), 1.0 - SelfLoop);
  }

  /** The sum of positive deferred probabilities is positive exactly when
      there is at least one. */
  lemma {:induction false} SumViaPositive(via: seq<ViaEdge>)
    requires forall v :: v in via ==> v.probability > 0.0
    ensures via == [] <==> SumVia(via) == 0.0
    ensures SumVia(via) >= 0.0
    decreases |via|
  {
    if via != [] {
      var init := via[..|via| - 1];
      assert forall v :: v in init ==> v in via;
      SumViaPositive(init);
    }
  }
}

=== FILE: state_creation.dfy ===
/** First pass of `Generate`: walk the notes and create the states.

    Every non-rest note gets a sound state keyed by its index; it also gets
    a silence state when another note (rest or not) follows it. Rest notes
    get nothing. Both tables are .NET dictionaries filled with `Add`, which
    throws on a key already present.
 */
module StateCreation {
  import opened Outcome
  import opened HmmGraph

  /** Whether the note at position `k` gets a silence state. */
  predicate HasSilence(notes: seq<Note>, k: nat)
    requires k < |notes|
  {
    !notes[k].isRest && k + 1 < |notes|
  }

  /** No two non-rest notes among the first `n` share an index. */
  ghost predicate DistinctUpTo(notes: seq<Note>, n: nat)
    requires n <= |notes|
  {
    forall j, k :: 0 <= j < k < n && !notes[j].isRest && !notes[k].isRest ==>
      notes[j].index != notes[k].index
  }

  ghost predicate DistinctIndices(notes: seq<Note>)
  {
    DistinctUpTo(notes, |notes|)
  }

  /** Indices of the non-rest notes among the first `n`. */
  ghost function SoundKeysUpTo(notes: seq<Note>, n: nat): set<int>
    requires n <= |notes|
  {
    set k | 0 <= k < n && !notes[k].isRest :: notes[k].index
  }

  /** Indices of the notes among the first `n` that get a silence state. */
  ghost function SilenceKeysUpTo(notes: seq<Note>, n: nat): set<int>
    requires n <= |notes|
  {
    set k | 0 <= k < n && HasSilence(notes, k) :: notes[k].index
  }

  /** `t` holds exactly the states the first `n` notes call for, each
      recording the note it was made for. */
  ghost predicate TablesFor(notes: seq<Note>, n: nat, t: Tables)
    requires n <= |notes|
  {
    && t.sound.Keys == SoundKeysUpTo(notes, n)
    && t.silence.Keys == SilenceKeysUpTo(notes, n)
    && (forall k :: 0 <= k < n && !notes[k].isRest ==> t.sound[notes[k].index] == notes[k])
    && (forall k :: 0 <= k < n && HasSilence(notes, k) ==> t.silence[notes[k].index] == notes[k])
  }

  /** The first-pass loop from position `i`, with the tables `t` built so
      far. The only way it fails is a key added twice; entries already
      made are never overwritten. */
  function CreateStatesFrom(notes: seq<Note>, i: nat, t: Tables): (r: Result<Tables>)
    requires i <= |notes|
    ensures r.Fail? ==> r.error == DuplicateKey
    ensures r.Ok? ==> forall k :: k in t.sound ==> k in r.value.sound && r.value.sound[k] == t.sound[k]
    ensures r.Ok? ==> forall k :: k in t.silence ==> k in r.value.silence && r.value.silence[k] == t.silence[k]
    decreases |notes| - i
  {
    if i == |notes| then Ok(t)
    else
      var note := notes[i];
      if note.isRest then CreateStatesFrom(notes, i + 1, t)
      else if note.index in t.sound then Fail(DuplicateKey)
      else
        var t1 := t.(sound := t.sound[note.index := note]);
        if i + 1 < |notes| then
          if note.index in t1.silence then Fail(DuplicateKey)
          else CreateStatesFrom(notes, i + 1, t1.(silence := t1.silence[note.index := note]))
        else CreateStatesFrom(notes, i + 1, t1)
  }

  /** The table that `CreateStatesFrom` builds from `t` for note `i`. */
  function Grow(notes: seq<Note>, i: nat, t: Tables): Tables
    requires i < |notes|
  {
    var note := notes[i];
    if note.isRest then t
    else
      var t1 := t.(sound := t.sound[note.index := note]);
      if i + 1 < |notes| then t1.(silence := t1.silence[note.index := note]) else t1
  }

  lemma SoundKeysStep(notes: seq<Note>, i: nat)
    requires i < |notes|
    ensures SoundKeysUpTo(notes, i + 1)
         == SoundKeysUpTo(notes, i) + (if notes[i].isRest then {} else {notes[i].index})
  {
    var a := SoundKeysUpTo(notes, i + 1);
    var b := SoundKeysUpTo(notes, i) + (if notes[i].isRest then {} else {notes[i].index});
    forall x | x in a ensures x in b {
      var k :| 0 <= k < i + 1 && !notes[k].isRest && notes[k].index == x;
    }
  }

  lemma SilenceKeysStep(notes: seq<Note>, i: nat)
    requires i < |notes|
    ensures SilenceKeysUpTo(notes, i + 1)
         == SilenceKeysUpTo(notes, i) + (if HasSilence(notes, i) then {notes[i].index} else {})
    ensures SilenceKeysUpTo(notes, i) <= SoundKeysUpTo(notes, i)
  {
    var a := SilenceKeysUpTo(notes, i + 1);
    var b := SilenceKeysUpTo(notes, i) + (if HasSilence(notes, i) then {notes[i].index} else {});
    forall x | x in a ensures x in b {
      var k :| 0 <= k < i + 1 && HasSilence(notes, k) && notes[k].index == x;
    }
    forall x | x in SilenceKeysUpTo(notes, i) ensures x in SoundKeysUpTo(notes, i) {
      var k :| 0 <= k < i && HasSilence(notes, k) && notes[k].index == x;
    }
  }

  lemma StepDistinct(notes: seq<Note>, i: nat, t: Tables)
    requires i < |notes|
    requires DistinctUpTo(notes, i) && t.sound.Keys == SoundKeysUpTo(notes, i)
    requires !notes[i].isRest ==> notes[i].index !in t.sound
    ensures DistinctUpTo(notes, i + 1)
  {
    forall j | 0 <= j < i && !notes[j].isRest && !notes[i].isRest
      ensures notes[j].index != notes[i].index
    {
      assert notes[j].index in SoundKeysUpTo(notes, i);
    }
  }

  lemma StepValues(notes: seq<Note>, i: nat, t: Tables)
    requires i < |notes|
    requires TablesFor(notes, i, t)
    requires !notes[i].isRest ==> notes[i].index !in t.sound
    ensures forall k :: 0 <= k < i + 1 && !notes[k].isRest ==>
              Grow(notes, i, t).sound[notes[k].index] == notes[k]
    ensures forall k :: 0 <= k < i + 1 && HasSilence(notes, k) ==>
              Grow(notes, i, t).silence[notes[k].index] == notes[k]
  {
    SoundKeysStep(notes, i);
    SilenceKeysStep(notes, i);
    var t2 := Grow(notes, i, t);
    forall k | 0 <= k < i + 1 && !notes[k].isRest
      ensures t2.sound[notes[k].index] == notes[k]
    {
      if k < i {
        assert notes[k].index in SoundKeysUpTo(notes, i);
      }
    }
    forall k | 0 <= k < i + 1 && HasSilence(notes, k)
      ensures t2.silence[notes[k].index] == notes[k]
    {
      if k < i {
        assert notes[k].index in SoundKeysUpTo(notes, i);
      }
    }
  }

  lemma StepKeys(notes: seq<Note>, i: nat, t: Tables)
    requires i < |notes|
    requires t.sound.Keys == SoundKeysUpTo(notes, i) && t.silence.Keys == SilenceKeysUpTo(notes, i)
    ensures Grow(notes, i, t).sound.Keys == SoundKeysUpTo(notes, i + 1)
    ensures Grow(notes, i, t).silence.Keys == SilenceKeysUpTo(notes, i + 1)
  {
    SoundKeysStep(notes, i);
    SilenceKeysStep(notes, i);
  }

  lemma StepKeeps(notes: seq<Note>, i: nat, t: Tables)
    requires i < |notes|
    requires DistinctUpTo(notes, i) && TablesFor(notes, i, t)
    requires !notes[i].isRest ==> notes[i].index !in t.sound
    ensures DistinctUpTo(notes, i + 1) && TablesFor(notes, i + 1, Grow(notes, i, t))
  {
    StepKeys(notes, i, t);
    StepDistinct(notes, i, t);
    StepValues(notes, i, t);
  }

  lemma StepDuplicate(notes: seq<Note>, i: nat, t: Tables)
    requires i < |notes|
    requires TablesFor(notes, i, t)
    requires !notes[i].isRest && notes[i].index in t.sound
    ensures !DistinctIndices(notes)
  {
    var j :| 0 <= j < i && !notes[j].isRest && notes[j].index == notes[i].index;
  }

  /** Past a note that raises no duplicate, the first pass continues from
      the grown tables. */
  lemma CreateStatesFromStep(notes: seq<Note>, i: nat, t: Tables)
    requires i < |notes|
    requires TablesFor(notes, i, t)
    requires !notes[i].isRest ==> notes[i].index !in t.sound
    ensures CreateStatesFrom(notes, i, t) == CreateStatesFrom(notes, i + 1, Grow(notes, i, t))
  {
    SilenceKeysStep(notes, i);
  }

  lemma {:induction false} CreateStatesFromCorrect(notes: seq<Note>, i: nat, t: Tables)
    requires i <= |notes|
    requires DistinctUpTo(notes, i) && TablesFor(notes, i, t)
    ensures var r := CreateStatesFrom(notes, i, t);
            && (r.Ok? <==> DistinctIndices(notes))
            && (r.Fail? ==> r.error == DuplicateKey)
            && (r.Ok? ==> TablesFor(notes, |notes|, r.value))
    decreases |notes| - i
  {
    if i < |notes| {
      var note := notes[i];
      if !note.isRest && note.index in t.sound {
        StepDuplicate(notes, i, t);
      } else {
        StepKeeps(notes, i, t);
        CreateStatesFromStep(notes, i, t);
        CreateStatesFromCorrect(notes, i + 1, Grow(notes, i, t));
      }
    }
  }

  /** First pass: succeeds exactly when no two non-rest notes share an
      index; then every non-rest note has a sound state and every non-rest
      note with a successor a silence state, and there are no others. */
  function CreateStates(notes: seq<Note>): (r: Result<Tables>)
    ensures r.Ok? <==> DistinctIndices(notes)
    ensures r.Fail? ==> r.error == DuplicateKey
    ensures r.Ok? ==> TablesFor(notes, |notes|, r.value)
  {
    CreateStatesFromCorrect(notes, 0, Tables(map[], map[]));
    CreateStatesFrom(notes, 0, Tables(map[], map[]))
  }

  /** Consequences for single notes: a non-rest note has a sound state; it
      has a silence state exactly when it is not the last note; a rest
      note's index only has states if a non-rest note shares it. */
  lemma StatesOfNote(notes: seq<Note>, t: Tables, k: nat)
    requires CreateStates(notes) == Ok(t)
    requires k < |notes|
    ensures !notes[k].isRest ==> notes[k].index in t.sound && t.sound[notes[k].index] == notes[k]
    ensures !notes[k].isRest ==> (notes[k].index in t.silence <==> k + 1 < |notes|)
    ensures forall x :: x in t.silence ==> x in t.sound
  {
    if !notes[k].isRest && notes[k].index in t.silence {
      var j :| 0 <= j < |notes| && HasSilence(notes, j) && notes[j].index == notes[k].index;
      assert j == k;
    }
  }
}

=== FILE: transitions.dfy ===
/** Second pass of `Generate`, for one non-rest note, up to the budget
    check: register generators, consult them in registration order, and
    validate and record their proposals. The budget check and the silence
    wiring are in `NoteAssembly`.
 */
module Transitions {
  import opened Outcome
  import opened HmmGraph

  /** Tolerance of the budget check (`errorMargin`). */
  const Margin: real := 0.01

  predicate IsProbability(p: real)
  {
    0.0 <= p <= 1.0
  }

  /** The errors a bad proposal raises: a value outside [0, 1], or a direct
      edge to a note with no sound state. */
  predicate ProposalError(e: Error)
  {
    e == InvalidDirectProbability || e == KeyNotFound || e == InvalidViaProbability
  }

  /** A proposal routed through the silence state, kept until all
      generators have run. */
  datatype ViaEdge = ViaEdge(toNoteIndex: int, probability: real)

  /** Bookkeeping for the note being processed: the direct edges added so
      far, `remainingProbability`, the deferred via-silence proposals and
      their total. */
  datatype NoteAcc = NoteAcc(edges: seq<Edge>, remaining: real, via: seq<ViaEdge>, viaTotal: real)

  const Initial: NoteAcc := NoteAcc([], 1.0, [], 0.0)

  function SumVia(via: seq<ViaEdge>): real
  {
    if via == [] then 0.0 else SumVia(via[..|via| - 1]) + via[|via| - 1].probability
  }

  /** The bookkeeping invariant for the note keyed `src`: the remaining
      probability is 1 minus the DIRECT mass claimed so far (via-silence
      mass is not subtracted yet), the total matches the deferred list,
      every recorded edge is a direct edge out of the note's sound state into
      an existing sound state, and every recorded probability lies in (0, 1]. */
  ghost predicate Wf(acc: NoteAcc, src: int, sound: map<int, Note>)
  {
    && acc.remaining == 1.0 - Sum(acc.edges)
    && acc.viaTotal == SumVia(acc.via)
    && (forall e :: e in acc.edges ==>
          && e.source == Sound(src) && e.target.Sound? && e.target.note in sound
          && 0.0 < e.weight <= 1.0)
    && (forall v :: v in acc.via ==> 0.0 < v.probability <= 1.0)
  }

  // ---------------------------------------------------------------------
  // Reference definitions: what a list of proposals asks for, with no
  // validation and no bookkeeping.

  /** Total direct probability proposed (zeros add nothing). */
  function DirectSum(rs: seq<GenResult>): real
  {
    if rs == [] then 0.0 else rs[0].direct + DirectSum(rs[1..])
  }

  /** Total via-silence probability proposed. */
  function ViaSum(rs: seq<GenResult>): real
  {
    if rs == [] then 0.0 else rs[0].viaSilence + ViaSum(rs[1..])
  }

  /** The direct edge one proposal calls for: none for a zero field. */
  function DirectPart(src: int, r: GenResult): seq<Edge>
  {
    if r.direct != 0.0 then [Edge(Sound(src), Sound(r.toNoteIndex), r.direct)] else []
  }

  /** The via-silence proposal one proposal calls for: none for a zero field. */
  function ViaPart(r: GenResult): seq<ViaEdge>
  {
    if r.viaSilence != 0.0 then [ViaEdge(r.toNoteIndex, r.viaSilence)] else []
  }

  /** The direct edges the proposals call for, in order. */
  function DirectEdges(src: int, rs: seq<GenResult>): seq<Edge>
  {
    if rs == [] then [] else DirectPart(src, rs[0]) + DirectEdges(src, rs[1..])
  }

  /** The via-silence proposals, in order. */
  function ViaEdges(rs: seq<GenResult>): seq<ViaEdge>
  {
    if rs == [] then [] else ViaPart(rs[0]) + ViaEdges(rs[1..])
  }

  /** Acceptable proposals defer only positive probabilities. */
  lemma {:induction false} ViaEdgesPositive(rs: seq<GenResult>, sound: map<int, Note>)
    requires forall r :: r in rs ==> Acceptable(r, sound)
    ensures forall v :: v in ViaEdges(rs) ==> 0.0 < v.probability <= 1.0
    decreases |rs|
  {
    if rs != [] {
      assert rs[0] in rs;
      assert forall r :: r in rs[1..] ==> r in rs;
      ViaEdgesPositive(rs[1..], sound);
    }
  }

  /** A proposal the engine accepts: each nonzero field is a probability,
      and a direct proposal targets a note that has a sound state. */
  predicate Acceptable(r: GenResult, sound: map<int, Note>)
  {
    && (r.direct != 0.0 ==> IsProbability(r.direct) && r.toNoteIndex in sound)
    && (r.viaSilence != 0.0 ==> IsProbability(r.viaSilence))
  }

  /** Everything the registered generators propose for the note at `pos`,
      in registration order: each generator is handed the budget minus the
      direct probability proposed before it, and a `None` answer proposes
      nothing. */
  ghost function Proposals(gens: seq<Generator>, notes: seq<Note>, pos: nat, remaining: real): seq<GenResult>
    decreases |gens|
  {
    if gens == [] then []
    else
      var rs := Answer(gens[0], notes, pos, remaining);
      rs + Proposals(gens[1..], notes, pos, remaining - DirectSum(rs))
  }

  /** What one generator proposes when handed `remaining`: nothing for a
      `None` answer. */
  function Answer(g: Generator, notes: seq<Note>, pos: nat, remaining: real): seq<GenResult>
  {
    var answer := g(notes, pos, remaining);
    if answer.Some? then answer.value else []
  }

  // ---------------------------------------------------------------------
  // The engine.

  /** The direct part of one proposal: a zero value is neither checked
      nor recorded; otherwise it must be a probability and its target must
      have a sound state, and the edge is added and its mass taken off the
      remaining probability. */
  function ApplyDirect(acc: NoteAcc, src: int, sound: map<int, Note>, r: GenResult): (out: Result<NoteAcc>)
    ensures r.direct != 0.0 && !IsProbability(r.direct) ==> out == Fail(InvalidDirectProbability)
    ensures r.direct != 0.0 && IsProbability(r.direct) && r.toNoteIndex !in sound ==> out == Fail(KeyNotFound)
    ensures out.Ok? <==> (r.direct != 0.0 ==> IsProbability(r.direct) && r.toNoteIndex in sound)
    ensures out.Ok? ==> out.value == acc.(edges := acc.edges + DirectPart(src, r), remaining := acc.remaining - r.direct)
  {
    if r.direct == 0.0 then Ok(acc)
    else if r.direct < 0.0 || r.direct > 1.0 then Fail(InvalidDirectProbability)
    else if r.toNoteIndex !in sound then Fail(KeyNotFound)
    else Ok(acc.(edges := acc.edges + [Edge(Sound(src), Sound(r.toNoteIndex), r.direct)], remaining := acc.remaining - r.direct))
  }

  /** The via-silence part of one proposal: a zero value is neither checked
      nor recorded; otherwise it must be a probability, and it is deferred
      and added to the via-silence total. */
  function ApplyVia(acc: NoteAcc, r: GenResult): (out: Result<NoteAcc>)
    ensures r.viaSilence != 0.0 && !IsProbability(r.viaSilence) ==> out == Fail(InvalidViaProbability)
    ensures out.Ok? <==> (r.viaSilence != 0.0 ==> IsProbability(r.viaSilence))
    ensures out.Ok? ==> out.value == acc.(via := acc.via + ViaPart(r), viaTotal := acc.viaTotal + r.viaSilence)
  {
    if r.viaSilence == 0.0 then Ok(acc)
    else if r.viaSilence < 0.0 || r.viaSilence > 1.0 then Fail(InvalidViaProbability)
    else Ok(acc.(via := acc.via + [ViaEdge(r.toNoteIndex, r.viaSilence)], viaTotal := acc.viaTotal + r.viaSilence))
  }

  /** Handle one proposal: its direct part first, then its via-silence
      part, so a bad direct value is reported before a bad via value. */
  function ApplyResult(acc: NoteAcc, src: int, sound: map<int, Note>, r: GenResult): (out: Result<NoteAcc>)
    ensures r.direct == 0.0 && r.viaSilence == 0.0 ==> out == Ok(acc)
    ensures r.direct != 0.0 && !IsProbability(r.direct) ==> out == Fail(InvalidDirectProbability)
    ensures r.direct != 0.0 && IsProbability(r.direct) && r.toNoteIndex !in sound ==> out == Fail(KeyNotFound)
    ensures && (r.direct == 0.0 || (IsProbability(r.direct) && r.toNoteIndex in sound))
            && r.viaSilence != 0.0
            && !IsProbability(r.viaSilence)
            ==> out == Fail(InvalidViaProbability)
    ensures out.Ok? <==> Acceptable(r, sound)
    ensures out.Ok? ==> out.value == NoteAcc(acc.edges + DirectPart(src, r), acc.remaining - r.direct,
                                             acc.via + ViaPart(r), acc.viaTotal + r.viaSilence)
  {
    var mid :- ApplyDirect(acc, src, sound, r);
    ApplyVia(mid, r)
  }

  lemma AppendAssoc<T>(a: seq<T>, b: seq<T>, c: seq<T>)
    ensures a + b + c == a + (b + c)
  {
  }

  /** Handle one generator's proposals in order. Succeeds exactly when
      every proposal is acceptable, and then records exactly the proposed
      direct edges and via-silence proposals, subtracting only the direct
      mass from the remaining probability. */
  function ApplyResults(acc: NoteAcc, src: int, sound: map<int, Note>, rs: seq<GenResult>): (out: Result<NoteAcc>)
    ensures out.Ok? <==> forall r :: r in rs ==> Acceptable(r, sound)
    ensures out.Fail? ==> ProposalError(out.error)
    ensures out.Ok? ==> out.value.edges == acc.edges + DirectEdges(src, rs)
    ensures out.Ok? ==> out.value.via == acc.via + ViaEdges(rs)
    ensures out.Ok? ==> out.value.remaining == acc.remaining - DirectSum(rs)
    ensures out.Ok? ==> out.value.viaTotal == acc.viaTotal + ViaSum(rs)
    decreases |rs|
  {
    if rs == [] then Ok(acc)
    else
      var next :- ApplyResult(acc, src, sound, rs[0]);
      var out := ApplyResults(next, src, sound, rs[1..]);
      assert forall r :: r in rs ==> r == rs[0] || r in rs[1..];
      AppendAssoc(acc.edges, DirectPart(src, rs[0]), DirectEdges(src, rs[1..]));
      AppendAssoc(acc.via, ViaPart(rs[0]), ViaEdges(rs[1..]));
      out
  }

  /** Adding a proposal's direct part keeps the bookkeeping invariant. */
  lemma ApplyDirectKeepsWf(acc: NoteAcc, src: int, sound: map<int, Note>, r: GenResult)
    requires Wf(acc, src, sound)
    requires ApplyDirect(acc, src, sound, r).Ok?
    ensures Wf(ApplyDirect(acc, src, sound, r).value, src, sound)
  {
    if r.direct != 0.0 {
      SumSnoc(acc.edges, Edge(Sound(src), Sound(r.toNoteIndex), r.direct));
    }
  }

  /** Deferring a proposal's via-silence part keeps the bookkeeping
      invariant. */
  lemma ApplyViaKeepsWf(acc: NoteAcc, src: int, sound: map<int, Note>, r: GenResult)
    requires Wf(acc, src, sound)
    requires ApplyVia(acc, r).Ok?
    ensures Wf(ApplyVia(acc, r).value, src, sound)
  {
    if r.viaSilence != 0.0 {
      var v := ViaEdge(r.toNoteIndex, r.viaSilence);
      assert (acc.via + [v])[..|acc.via|] == acc.via;
    }
  }

  lemma ApplyResultKeepsWf(acc: NoteAcc, src: int, sound: map<int, Note>, r: GenResult)
    requires Wf(acc, src, sound)
    requires ApplyResult(acc, src, sound, r).Ok?
    ensures Wf(ApplyResult(acc, src, sound, r).value, src, sound)
  {
    ApplyDirectKeepsWf(acc, src, sound, r);
    ApplyViaKeepsWf(ApplyDirect(acc, src, sound, r).value, src, sound, r);
  }

  /** The bookkeeping invariant survives a generator's proposals. */
  lemma {:induction false} ApplyResultsKeepsWf(acc: NoteAcc, src: int, sound: map<int, Note>, rs: seq<GenResult>)
    requires Wf(acc, src, sound)
    requires ApplyResults(acc, src, sound, rs).Ok?
    ensures Wf(ApplyResults(acc, src, sound, rs).value, src, sound)
    decreases |rs|
  {
    if rs != [] {
      ApplyResultKeepsWf(acc, src, sound, rs[0]);
      ApplyResultsKeepsWf(ApplyResult(acc, src, sound, rs[0]).value, src, sound, rs[1..]);
    }
  }

  /** Starting from nothing, a generator list that is accepted leaves
      exactly the proposed direct edges and via-silence proposals, and the
      bookkeeping invariant holds. */
  lemma FromInitial(src: int, sound: map<int, Note>, rs: seq<GenResult>)
    requires ApplyResults(Initial, src, sound, rs).Ok?
    ensures var acc := ApplyResults(Initial, src, sound, rs).value;
            && Wf(acc, src, sound)
            && acc.edges == DirectEdges(src, rs)
            && acc.via == ViaEdges(rs)
            && Sum(acc.edges) == DirectSum(rs)
            && SumVia(acc.via) == ViaSum(rs)
  {
    var acc := ApplyResults(Initial, src, sound, rs).value;
    ApplyResultsKeepsWf(Initial, src, sound, rs);
    assert Initial.edges + DirectEdges(src, rs) == DirectEdges(src, rs);
    assert Initial.via + ViaEdges(rs) == ViaEdges(rs);
  }

  /** Consult the generators in order, each with the current remaining
      probability; a `None` answer is skipped. It can only fail on a bad
      proposal, and what is already recorded stays, in place. */
  function RunGenerators(gens: seq<Generator>, notes: seq<Note>, pos: nat, sound: map<int, Note>, acc: NoteAcc): (r: Result<NoteAcc>)
    requires pos < |notes|
    ensures r.Fail? ==> ProposalError(r.error)
    ensures r.Ok? ==> acc.edges <= r.value.edges && acc.via <= r.value.via
    decreases |gens|
  {
    if gens == [] then Ok(acc)
    else
      var answer := gens[0](notes, pos, acc.remaining);
      if answer.None? then RunGenerators(gens[1..], notes, pos, sound, acc)
      else
        var next :- ApplyResults(acc, notes[pos].index, sound, answer.value);
        RunGenerators(gens[1..], notes, pos, sound, next)
  }

  /** Applying a concatenation of proposals is applying the first part,
      then the second. */
  lemma {:induction false} ApplyResultsAppend(acc: NoteAcc, src: int, sound: map<int, Note>, a: seq<GenResult>, b: seq<GenResult>)
    ensures ApplyResults(acc, src, sound, a + b)
         == (match ApplyResults(acc, src, sound, a)
             case Fail(err) => Fail(err)
             case Ok(mid) => ApplyResults(mid, src, sound, b))
    decreases |a|
  {
    if a == [] {
      assert a + b == b;
    } else {
      assert (a + b)[0] == a[0];
      assert (a + b)[1..] == a[1..] + b;
      match ApplyResult(acc, src, sound, a[0])
      case Fail(_) =>
      case Ok(next) =>
        ApplyResultsAppend(next, src, sound, a[1..], b);
    }
  }

  /** The first generator's answer comes first; the others are handed
      what its direct proposals leave. */
  lemma ProposalsStep(gens: seq<Generator>, notes: seq<Note>, pos: nat, remaining: real, rs: seq<GenResult>, rest: seq<GenResult>)
    requires gens != [] && rs == Answer(gens[0], notes, pos, remaining)
    requires rest == Proposals(gens[1..], notes, pos, remaining - DirectSum(rs))
    ensures Proposals(gens, notes, pos, remaining) == rs + rest
  {
  }

  /** One step of the engine: the first generator's answer is applied,
      and the rest run on what it leaves. A `None` answer applies nothing. */
  lemma RunGeneratorsStep(gens: seq<Generator>, notes: seq<Note>, pos: nat, sound: map<int, Note>, acc: NoteAcc)
    requires pos < |notes| && gens != []
    ensures var first := ApplyResults(acc, notes[pos].index, sound, Answer(gens[0], notes, pos, acc.remaining));
            RunGenerators(gens, notes, pos, sound, acc)
            == if first.Fail? then Fail(first.error) else RunGenerators(gens[1..], notes, pos, sound, first.value)
  {
  }

  /** The engine, started with `budget` left, applies in order everything
      the generators propose when the first is handed `budget`. */
  lemma {:induction false} RunGeneratorsOnBudget(gens: seq<Generator>, notes: seq<Note>, pos: nat, sound: map<int, Note>,
                                                 acc: NoteAcc, budget: real)
    requires pos < |notes| && acc.remaining == budget
    ensures RunGenerators(gens, notes, pos, sound, acc)
         == ApplyResults(acc, notes[pos].index, sound, Proposals(gens, notes, pos, budget))
    decreases |gens|
  {
    if gens != [] {
      var src := notes[pos].index;
      var rs := Answer(gens[0], notes, pos, budget);
      var left := budget - DirectSum(rs);
      var rest := Proposals(gens[1..], notes, pos, left);
      ProposalsStep(gens, notes, pos, budget, rs, rest);
      RunGeneratorsStep(gens, notes, pos, sound, acc);
      ApplyResultsAppend(acc, src, sound, rs, rest);
      var first := ApplyResults(acc, src, sound, rs);
      if first.Ok? {
        var next := first.value;
        RunGeneratorsOnBudget(gens[1..], notes, pos, sound, next, left);
        calc {
          RunGenerators(gens, notes, pos, sound, acc);
          RunGenerators(gens[1..], notes, pos, sound, next);
          ApplyResults(next, src, sound, rest);
          ApplyResults(acc, src, sound, rs + rest);
        }
      }
    }
  }

  /** Consulting the generators in registration order is the same as
      applying, in order, everything they propose when each is handed the
      budget left over by the direct proposals before it. */
  lemma RunGeneratorsIsProposals(gens: seq<Generator>, notes: seq<Note>, pos: nat, sound: map<int, Note>, acc: NoteAcc)
    requires pos < |notes|
    ensures RunGenerators(gens, notes, pos, sound, acc)
         == ApplyResults(acc, notes[pos].index, sound, Proposals(gens, notes, pos, acc.remaining))
  {
    RunGeneratorsOnBudget(gens, notes, pos, sound, acc, acc.remaining);
  }

  /** `Add`: a null generator is rejected; otherwise it is appended, so it
      is consulted after every generator registered before it. */
  function Add(gens: seq<Generator>, g: Option<Generator>): (r: Result<seq<Generator>>)
    ensures r.Fail? <==> g.None?
    ensures r.Fail? ==> r.error == ArgumentNull
    ensures r.Ok? ==> |r.value| == |gens| + 1 && r.value[..|gens|] == gens && r.value[|gens|] == g.value
  {
    if g.None? then Fail(ArgumentNull) else Ok(gens + [g.value])
  }

  /** A generator registered by `Add` is consulted last, on whatever the
      earlier generators left. */
  lemma {:induction false} AddedGeneratorRunsLast(gens: seq<Generator>, g: Generator, notes: seq<Note>, pos: nat, sound: map<int, Note>, acc: NoteAcc)
    requires pos < |notes|
    ensures Add(gens, Some(g)).Ok?
    ensures RunGenerators(Add(gens, Some(g)).value, notes, pos, sound, acc)
         == (match RunGenerators(gens, notes, pos, sound, acc)
             case Fail(err) => Fail(err)
             case Ok(mid) => RunGenerators([g], notes, pos, sound, mid))
    decreases |gens|
  {
    if gens != [] {
      assert (gens + [g])[1..] == gens[1..] + [g];
      var answer := gens[0](notes, pos, acc.remaining);
      if answer.None? {
        AddedGeneratorRunsLast(gens[1..], g, notes, pos, sound, acc);
      } else {
        match ApplyResults(acc, notes[pos].index, sound, answer.value)
        case Fail(_) =>
        case Ok(next) =>
          AddedGeneratorRunsLast(gens[1..], g, notes, pos, sound, next);
      }
    }
  }
}
